=== FILE: README.md ===
# Slack routing admin console — a Dafny model of its client-side logic

The console is a React front end for a Slack message-routing backend. An
operator connects Slack workspaces, picks one as "internal", defines routes
that copy messages from a channel of one workspace to a channel of another,
and maintains identity mappings between internal users and users of client
workspaces. Most of the code renders markup and calls HTTP endpoints; this
project models the logic inside it:

- `Dashboard` (dashboard.dfy) is the `DashboardLayout` page as a state
  machine. Each asynchronous handler is one transition `State → State`. Its
  inputs are the outcomes of the backend calls the handler awaits
  (`ApiOutcome = Ok(data) | Err(message)`). A transition covers everything
  from before the handler starts until after its `finally` has run.
- `Loading` (loading.dfy) is the reference-counted loading flag. It includes
  a trace model of interleaved operations.
- `ChannelCache` (channel_cache.dfy) is the per-workspace channel cache, an
  association list in insertion order.
- `RoutesList` (routes_list.dfy) covers:
  - grouping of routes by source workspace;
  - the direction arrow;
  - the client-side enabled switch;
  - delete gating.
- `CreateRouteForm`, `CreateMappingForm` and `Connections` are the three
  forms. Each has its defaults, validity, save guard, payload and reset
  rules.
- `WorkspacesList` is the "Mark Internal" gate and the selection test.
- `OAuthCallback` is the decision table of the OAuth return page and its
  redirect timer.
- `ChannelsList` and `MappingsList` cover view precedence and display
  fallbacks.
- `Js` (js.dfy), `Entities` (entities.dfy) and `Seqs` (seqs.dfy) are shared
  conventions, records and a sequence filter.

JavaScript values are modelled as follows:

- A string property that may be missing is the empty string. Most uses
  of such a property test truthiness or apply `||`, and there a missing
  value and `''` behave the same. The other uses are comparisons and keys,
  all on ids:
  - `===`: src/components/WorkspacesList.jsx:21,
    src/components/ChannelsList.jsx:27, src/components/CreateRouteForm.jsx:57
    and :62, and src/pages/DashboardLayout.jsx:212 and :245;
  - object keys: src/pages/DashboardLayout.jsx:133, :138 and :292, and
    src/components/RoutesList.jsx:33, :68 and :92;
  - `Map` keys: src/components/RoutesList.jsx:40, :48-52 and :90, and
    src/components/IdentityMappingsList.jsx:34 and :68.

  These are modelled under the assumption that the ids involved are present,
  as the backend's records always carry them. Where that assumption
  matters, "## Left out" says so: a workspace without `team_id` would be
  highlighted in JavaScript while nothing is selected
  (`undefined === undefined`), and a route without `source_team_id` would
  get its own `Map` key.
- `enabled` (read with `!== false`) is `Option<bool>`.
- Member counts (read with `??`) are `Option<int>`.
- Nullable objects, such as the selected workspace or the `route` prop, are
  `Option`.
- `window.confirm` is a boolean input.

The model follows the code throughout. The initial load, for instance, is
not three independent fetches that each handle their own failure: the code
(src/pages/DashboardLayout.jsx:147-167) joins the three with `Promise.all`
in one `try`, so a single failure discards all three results and shows a
single "Failed to load data" toast. `Dashboard.LoadAll` models it that way.

## Model

| member | source | states |
|---|---|---|
| Js.ErrorText | src/components/CreateRouteForm.jsx:91 | a form's error text is the rejection's message when it has one, else the fallback, so it is never blank when the fallback is not |
| Entities.NameById | src/components/RoutesList.jsx:38-42 | the id→label lookup misses exactly for ids no workspace carries; a hit is the label (`team_name \|\| team_id`) of the last workspace with that id |
| Entities.NameByIdLaterWins | src/components/RoutesList.jsx:40 | registering one more workspace makes its label win for its id and leaves every other id's answer unchanged |
| Entities.TeamLabel | src/components/RoutesList.jsx:48 | a record's own name wins when present, and the label is never blank when the id is not |
| Entities.TeamLabelFallback | src/components/RoutesList.jsx:48 | `name \|\| lookup(id) \|\| id`: the record's own name, else the label of the last workspace with that id, else the bare id |
| Loading.Start | src/pages/DashboardLayout.jsx:85 | starting an operation raises the counter by exactly one, so the overlay shows |
| Loading.Stop | src/pages/DashboardLayout.jsx:86 | finishing lowers the counter by one and never below zero |
| Loading.CounterIsInFlight | src/pages/DashboardLayout.jsx:85-86 | for any well-bracketed interleaving of operations the counter equals the number still in flight, so the clamp at zero never fires |
| Loading.OverlayIffPending | src/pages/DashboardLayout.jsx:360-364 | the overlay is visible exactly while some operation has not reached its `finally`; when all have, the counter is 0 |
| ChannelCache.Get | src/pages/DashboardLayout.jsx:133 | a lookup succeeds exactly for cached keys, even when the cached list is empty, and returns that key's entry |
| ChannelCache.Put | src/pages/DashboardLayout.jsx:138 | `{ ...prev, [k]: v }`: keys stay distinct, exactly `k` is added, `k` reads `v`, every other key reads as before; a new key goes last, and an existing one is overwritten at its own position |
| ChannelCache.AllChannels | src/pages/DashboardLayout.jsx:80-83 | a channel is in `allChannels` iff some cache entry holds it |
| ChannelCache.AllChannelsSnoc | src/pages/DashboardLayout.jsx:80-83 | `allChannels` is the entries' lists concatenated in key order: an entry added at the end contributes its channels at the end, each exactly once |
| ChannelCache.AllChannelsAfterPut | src/pages/DashboardLayout.jsx:138 | caching a new workspace appends its channels to `allChannels`; overwriting a cached one replaces its channels where they stood |
| ChannelCache.AllChannelsTagged | src/pages/DashboardLayout.jsx:137-138 | in a tagged cache every channel of `allChannels` names a cached workspace |
| Dashboard.Initial | src/pages/DashboardLayout.jsx:66-76 | the initial state satisfies the cache invariant, shows no overlay and no toast, and is on the workspaces tab |
| Dashboard.LoadWorkspaces | src/pages/DashboardLayout.jsx:93-104 | success replaces the list (`data \|\| []`); failure keeps it and shows "Failed to load workspaces"; nothing else changes and the counter returns to its value |
| Dashboard.LoadRoutes | src/pages/DashboardLayout.jsx:106-117 | the same for routes, with "Failed to load routes" |
| Dashboard.LoadMappings | src/pages/DashboardLayout.jsx:119-130 | the same for identity mappings, with "Failed to load mappings" |
| Dashboard.LoadAll | src/pages/DashboardLayout.jsx:147-167 | all three lists update only if all three fetches succeed; otherwise none changes and "Failed to load data" is shown |
| Dashboard.TagChannels | src/pages/DashboardLayout.jsx:137 | every fetched channel gets the workspace's id and is otherwise unchanged, in order |
| Dashboard.EnsureChannelsFrom | src/pages/DashboardLayout.jsx:132-145 | the skip test reads the snapshot `seen` the closure captured: a falsy id or one in `seen` is a no-op; otherwise a success writes exactly that key, tagged, into the current cache and a failure leaves the cache and shows "Failed to load channels"; the cache invariant is kept and the counter returns to its value |
| Dashboard.EnsureChannels | src/pages/DashboardLayout.jsx:132-145 | a falsy or already cached id is a no-op; a success adds exactly that key with tagged channels and changes no other key; a failure leaves the cache as it was and shows "Failed to load channels" |
| Dashboard.EnsureChannelsMemoised | src/pages/DashboardLayout.jsx:133 | once a workspace's channels are cached, a second call changes nothing whatever the backend would answer |
| Dashboard.EnsureChannelsRetriesAfterFailure | src/pages/DashboardLayout.jsx:139-141 | after a failed fetch a later successful call fills the cache for that workspace |
| Dashboard.SelectWorkspace | src/pages/DashboardLayout.jsx:169-174 | selects the workspace, clears the channel and forces the workspaces tab; the lists and editing slots are kept and every cached entry keeps its channels; an uncached workspace gets its fetched channels, tagged, or the "Failed to load channels" toast with the cache unchanged; a cached or empty id changes neither cache nor toast |
| Dashboard.SelectWorkspaceIdempotent | src/pages/DashboardLayout.jsx:169-174 | once a selection's fetch has succeeded, selecting the same workspace again changes nothing, whatever the backend would answer |
| Dashboard.MarkInternal | src/pages/DashboardLayout.jsx:176-188 | on success the workspaces are reloaded (kept if the reload fails) and "Workspace marked as internal" wins over any reload error; on failure "Failed to mark internal" and nothing reloads |
| Dashboard.SaveRoute | src/pages/DashboardLayout.jsx:190-204 | success reloads routes, clears the editing route and shows "Route saved"; failure shows "Failed to save route", keeps the editing route and re-throws the message to the form |
| Dashboard.DeleteRoute | src/pages/DashboardLayout.jsx:206-221 | success reloads routes and clears the editing route exactly when it has the deleted route's id; failure changes nothing but the toast |
| Dashboard.SaveMapping | src/pages/DashboardLayout.jsx:223-237 | the mapping counterpart of SaveRoute |
| Dashboard.DeleteMapping | src/pages/DashboardLayout.jsx:239-254 | the mapping counterpart of DeleteRoute, matching on `key` |
| Dashboard.EditRoute | src/pages/DashboardLayout.jsx:256-272 | opens the routes tab with the route in the editor; the lists, selection and other editor are kept and every cached workspace keeps its entry; an uncached side's successful fetch stores its tagged channels (the destination's written last), a failed one leaves that workspace uncached unless the other side fetched it and shows "Failed to load channels"; no other toast appears; with no route the cache is untouched |
| Dashboard.EditRouteEffect | src/pages/DashboardLayout.jsx:256-261 | the effect's two `ensureChannels` calls against the pre-effect cache: cached entries are kept, an uncached side's success stores its tagged channels with the destination written last, a failure leaves that workspace uncached unless the other side fetched it, and the only toast it shows is "Failed to load channels" |
| Dashboard.EditRouteSharedWorkspace | src/pages/DashboardLayout.jsx:256-261 | when source and destination share an uncached workspace both calls fetch it and the cache keeps the destination's answer when the responses arrive in request order |
| Dashboard.AddMapping | src/pages/DashboardLayout.jsx:283-286 | opens the mappings tab with the given mapping (or none) in the editor and changes nothing else |
| Dashboard.ChangeTab | src/pages/DashboardLayout.jsx:338 | switching tabs changes only the tab |
| Dashboard.Refresh | src/pages/DashboardLayout.jsx:347-350 | workspaces and routes reload independently: each list changes iff its own fetch succeeds; with the routes reload settling last, its error toast wins, else the workspaces error shows, and with two successes the toast is unchanged |
| Dashboard.AllChannelsOf | src/pages/DashboardLayout.jsx:80-83 | every channel offered to the route form carries the id of a cached workspace |
| RoutesList.IconForDirection | src/components/RoutesList.jsx:21-25 | the two-way arrow iff bidirectional, the left arrow iff outbound, the right arrow for every other value |
| RoutesList.SourceName | src/components/RoutesList.jsx:48 | a group heading is the route's own source name when present, and never blank when the source id is not |
| RoutesList.DestName | src/components/RoutesList.jsx:89-90 | a destination label is the route's own destination name when present, and never blank when the id is not |
| RoutesList.GroupRoutes | src/components/RoutesList.jsx:44-55 | one `forEach` step per route; there are at most as many groups as routes, and none exactly when there are no routes |
| RoutesList.IconsDistinguishDirections | src/components/RoutesList.jsx:21-25 | the three directions get three different arrows, and any other value is drawn as inbound |
| RoutesList.RouteNamesFallback | src/components/RoutesList.jsx:48-50 | a group heading and a destination label are the route's own name, else the last connected workspace's label, else the id |
| RoutesList.GroupRoutesIsGrouping | src/components/RoutesList.jsx:44-55 | grouping partitions the routes: one group per distinct source id, in order of first occurrence, each holding exactly that source's routes in input order, named after its first route, with the multiset of all items equal to the input |
| RoutesList.GroupingExample | src/components/RoutesList.jsx:44-55 | routes from A, B, A give group A with routes 1 and 3, then group B with route 2 |
| RoutesList.EmptyStateIffNoGroups | src/components/RoutesList.jsx:81-83 | the empty-state line appears exactly when there are no groups |
| RoutesList.InitialEnabled | src/components/RoutesList.jsx:30-36 | the seeded switch state has an entry for exactly the routes' ids |
| RoutesList.InitialShownEnabled | src/components/RoutesList.jsx:30-36 | a seeded switch shows enabled unless the route says exactly `enabled: false`; with duplicate ids the later route decides |
| RoutesList.ShownEnabled | src/components/RoutesList.jsx:92 | definitional: a switch shows enabled unless its entry is exactly `false`, so a missing entry shows enabled |
| RoutesList.Toggle | src/components/RoutesList.jsx:65-70 | a toggle flips only that route's switch and keeps every other entry |
| RoutesList.ToggleTwice | src/components/RoutesList.jsx:65-70 | toggling an existing entry twice restores the state |
| RoutesList.UnseededToggleInvisible | src/components/RoutesList.jsx:65-70 | a route with no entry reads as enabled and its first toggle stores `true`, so the click shows no change |
| Js.ConfirmedDelete | src/components/RoutesList.jsx:57-63 | the item is passed on iff a delete callback exists and the user confirms; the mapping table's `handleDelete` uses the same guard |
| CreateRouteForm.FieldsFrom | src/components/CreateRouteForm.jsx:34-39 | each field comes from the route or is `''`; the direction defaults to `'inbound'` and is never empty |
| CreateRouteForm.Init | src/components/CreateRouteForm.jsx:34-42 | a fresh form shows the route's fields, is not saving and has no messages |
| CreateRouteForm.OnRouteChange | src/components/CreateRouteForm.jsx:44-53 | a new `route` prop re-seeds every field and clears both messages but leaves `saving` alone |
| CreateRouteForm.ChannelsFor | src/components/CreateRouteForm.jsx:55-63 | nothing is offered before a workspace is chosen; every offered channel is an input channel that is untagged or of that workspace, and every such input channel is offered |
| CreateRouteForm.ChannelsForSpec | src/components/CreateRouteForm.jsx:55-63 | the `i`-th offered channel is the input channel at the `i`-th matching position, so each matching channel appears once per occurrence, in input order |
| CreateRouteForm.IsValid | src/components/CreateRouteForm.jsx:65-66 | definitional: every field but the name is non-empty |
| CreateRouteForm.SaveDisabled | src/components/CreateRouteForm.jsx:208 | definitional: the save button is disabled while invalid or saving |
| CreateRouteForm.ChannelSelectDisabled | src/components/CreateRouteForm.jsx:134 | definitional: a channel select is disabled without a workspace or with nothing to offer (the destination select at line 170 alike) |
| CreateRouteForm.SetSourceTeam | src/components/CreateRouteForm.jsx:115-118 | a source workspace change clears the source channel and nothing else |
| CreateRouteForm.SetDestTeam | src/components/CreateRouteForm.jsx:151-154 | a destination workspace change clears the destination channel and nothing else |
| CreateRouteForm.TeamChangeInvalidates | src/components/CreateRouteForm.jsx:65-66 | after either workspace change the form is invalid until that channel is picked again |
| CreateRouteForm.BeginSave | src/components/CreateRouteForm.jsx:68-82 | an invalid or saving form calls nothing; otherwise the six fields go to `onSave` unchanged and the form is marked saving with messages cleared |
| CreateRouteForm.NoDoubleSubmit | src/components/CreateRouteForm.jsx:70 | a second submit while the first is pending calls nothing |
| CreateRouteForm.FinishSave | src/components/CreateRouteForm.jsx:84-94 | saving ends; success sets "Route saved successfully." and calls `onCancel` if given; rejection shows its message or "Failed to save route"; fields are kept |
| CreateRouteForm.PayloadRoundTrip | src/components/CreateRouteForm.jsx:34-39 | a valid form's payload, stored and reopened in the editor, reproduces every field, including an empty name |
| CreateMappingForm.FieldsFrom | src/components/CreateIdentityMappingForm.jsx:34-38 | each field comes from the mapping or is `''` |
| CreateMappingForm.Init | src/components/CreateIdentityMappingForm.jsx:34-41 | a fresh form shows the mapping's fields, is not saving and has no messages |
| CreateMappingForm.OnMappingChange | src/components/CreateIdentityMappingForm.jsx:43-51 | a new `mapping` prop re-seeds every field and clears both messages but leaves `saving` alone |
| CreateMappingForm.WorkspaceOptions | src/components/CreateIdentityMappingForm.jsx:53-56 | one option per workspace, in order, valued by id and labelled by name, else id |
| CreateMappingForm.Key | src/components/CreateIdentityMappingForm.jsx:69 | the key is the user id, one `:`, then the workspace id |
| CreateMappingForm.KeyRoundTrip | src/components/CreateIdentityMappingForm.jsx:69 | when the user id has no `:`, splitting the key at its first `:` gives back the user id and workspace id |
| CreateMappingForm.KeyCollision | src/components/CreateIdentityMappingForm.jsx:69 | without that proviso two different (user, workspace) pairs share a key |
| CreateMappingForm.IsValid | src/components/CreateIdentityMappingForm.jsx:58-59 | definitional: all five fields are non-empty |
| CreateMappingForm.SaveDisabled | src/components/CreateIdentityMappingForm.jsx:156 | definitional: the save button is disabled while invalid or saving |
| CreateMappingForm.PayloadOf | src/components/CreateIdentityMappingForm.jsx:69-77 | the five fields are copied unchanged and the key, one character longer than its two parts, splits back into user and workspace when the user id has no `:` |
| CreateMappingForm.BeginSave | src/components/CreateIdentityMappingForm.jsx:61-77 | an invalid or saving form calls nothing; otherwise the payload has the derived key and the five fields unchanged, and the form is marked saving |
| CreateMappingForm.NoDoubleSubmit | src/components/CreateIdentityMappingForm.jsx:63 | a second submit while the first is pending calls nothing |
| CreateMappingForm.PayloadRoundTrip | src/components/CreateIdentityMappingForm.jsx:69-77 | the saved mapping reopened in the editor shows the same five fields, and its key splits back into user and workspace |
| CreateMappingForm.FinishSave | src/components/CreateIdentityMappingForm.jsx:79-87 | saving ends; success sets "Mapping saved successfully." and calls `onCancel` if given; rejection shows its message or "Failed to save mapping" |
| Connections.SelectWorkspace | src/components/Connections.jsx:16-35 | picking a workspace always clears the channel; a fetch starts iff the value changed to a non-empty workspace, with loading raised; changing to none empties the list |
| Connections.ChannelsLoaded | src/components/Connections.jsx:24-32 | a finished fetch drops loading and leaves `data \|\| []` on success or `[]` on failure |
| Connections.SelectChannel | src/components/Connections.jsx:122 | picking a channel changes only that side's channel |
| Connections.Placeholder | src/components/Connections.jsx:129-131 | the placeholder reads "Loading..." exactly while that side is loading |
| Connections.ChannelSelectDisabled | src/components/Connections.jsx:123 | definitional: a channel select is disabled without a workspace or while its fetch is pending (the destination select at line 177 alike) |
| Connections.IsFormValid | src/components/Connections.jsx:73 | definitional: both workspaces and both channels are chosen |
| Connections.CreateClick | src/components/Connections.jsx:59-61 | opening the form keeps both sides as they were |
| Connections.Cancel | src/components/Connections.jsx:63-71 | cancel hides the form and empties both selections and lists, keeping the loading flags |
| Connections.WorkspaceChangeInvalidates | src/components/Connections.jsx:73 | after a workspace change on either side the form is invalid |
| Connections.CancelClears | src/components/Connections.jsx:63-73 | after cancel the form is invalid, both lists are empty and both channel selects are disabled |
| Connections.PickThenLoad | src/components/Connections.jsx:16-35 | choosing a new workspace disables its channel select until the fetch lands, then offers the fetched list with nothing chosen |
| Connections.SameWorkspaceKeepsList | src/components/Connections.jsx:35 | re-choosing the current workspace clears the channel but keeps the list and fetches nothing |
| Connections.LateFetchRepopulates | src/components/Connections.jsx:17-31 | a fetch pending when the workspace is cleared still fills the list, with no workspace chosen |
| WorkspacesList.HasInternal | src/components/WorkspacesList.jsx:5 | true iff some workspace is internal |
| WorkspacesList.MarkControlFor | src/components/WorkspacesList.jsx:41-50 | no button on an internal workspace; an enabled button exactly when the row is not internal and no workspace is |
| WorkspacesList.MarkInternalClick | src/components/WorkspacesList.jsx:44-49 | the row's workspace goes to `onMarkInternal` iff a callback exists and the button is enabled |
| WorkspacesList.MarkOnlyOnce | src/components/WorkspacesList.jsx:46-50 | once a row has been marked internal, every click on any row of the updated list is refused |
| WorkspacesList.InternalClosesGate | src/components/WorkspacesList.jsx:50 | in a list with an internal workspace no row has an enabled button |
| WorkspacesList.NoInternalOpensGate | src/components/WorkspacesList.jsx:41-50 | with no internal workspace every row's button is enabled |
| WorkspacesList.SelectionById | src/components/WorkspacesList.jsx:21 | the row with the selected id is highlighted, with distinct ids no other row is, and with nothing selected no row is |
| WorkspacesList.IsSelected | src/components/WorkspacesList.jsx:21 | definitional: a row is highlighted when its id equals the selected workspace's, never with nothing selected |
| WorkspacesList.ShowsEmptyMessage | src/components/WorkspacesList.jsx:67 | definitional: "No workspaces connected." shows iff the list is empty |
| WorkspacesList.RowTitle | src/components/WorkspacesList.jsx:36 | the green icon marks exactly the internal workspaces, and the label is never blank |
| OAuthCallback.ViewFor | src/pages/OAuthCallback.jsx:49-86 | processing with no status and no error; the error whenever there is one; success iff `status === 'success'` and no error, showing the team id iff present; nothing otherwise |
| OAuthCallback.TimerFor | src/pages/OAuthCallback.jsx:41-47 | a 2000 ms redirect to `/dashboard` is armed iff the status is `success` |
| OAuthCallback.AutoRedirects | src/pages/OAuthCallback.jsx:41-47 | the page moves on by itself iff the status is `success` and it stays mounted for at least 2000 ms |
| OAuthCallback.ButtonTarget | src/pages/OAuthCallback.jsx:60-84 | the error view's button leads to `/connect`, the success view's to `/dashboard`, other views have none |
| OAuthCallback.SuccessLeadsToDashboard | src/pages/OAuthCallback.jsx:41-47 | a success page reaches the dashboard by its button and by its timer |
| OAuthCallback.ErrorWithSuccessStillRedirects | src/pages/OAuthCallback.jsx:41-70 | with `status=success` and an error, the error and retry button show, yet the timer still redirects to the dashboard |
| OAuthCallback.NoTimerWithoutSuccess | src/pages/OAuthCallback.jsx:41-47 | without a success status nothing redirects and no success view appears |
| ChannelsList.MemberCount | src/components/ChannelsList.jsx:28 | the count is the first of the three fields that is present, even if it is 0 |
| ChannelsList.MemberLineFor | src/components/ChannelsList.jsx:67 | a count is shown iff the chosen count is present and nonzero, and it is that count |
| ChannelsList.ZeroCountShadows | src/components/ChannelsList.jsx:28 | a zero `num_members` hides any count under the other names and reads "unavailable" |
| ChannelsList.CountShownIff | src/components/ChannelsList.jsx:28 | a count shows exactly when some field carries a nonzero count and no earlier field carries any |
| ChannelsList.RowFor | src/components/ChannelsList.jsx:26-70 | a row shows the channel's id, name and privacy, its member line, and is selected iff its id is the selected one |
| ChannelsList.ContentFor | src/components/ChannelsList.jsx:13-72 | no workspace beats loading, loading beats an empty list; otherwise one row per channel in order |
| ChannelsList.AtMostOneSelected | src/components/ChannelsList.jsx:27 | with distinct channel ids at most one row is highlighted |
| ChannelsList.HeaderSuffix | src/components/ChannelsList.jsx:11 | the header names the selected workspace by name, else id, and shows nothing without one |
| ChannelsList.SelectClick | src/components/ChannelsList.jsx:33 | a row click hands that channel to `onSelectChannel` iff a callback exists |
| MappingsList.ClientNameResolves | src/components/IdentityMappingsList.jsx:32-36 | the client workspace shows the label of the last connected workspace with that id, or the raw id when none matches |
| MappingsList.ClientName | src/components/IdentityMappingsList.jsx:68 | the client workspace cell is never blank when the mapping has a workspace id |
| MappingsList.RowFor | src/components/IdentityMappingsList.jsx:76-79 | internal user is the username, else id; client user is the username, else id; the display name is the client username, else an em dash, never blank |
| MappingsList.BodyFor | src/components/IdentityMappingsList.jsx:53-101 | the empty-state line iff there are no mappings, else a table with one row per mapping in order |
| MappingsList.SavedMappingShowsNames | src/components/IdentityMappingsList.jsx:76-79 | a mapping saved by the form shows its names and never falls back to ids |
| Seqs.FilterKeepsOrder | src/components/CreateRouteForm.jsx:57 | `filter` keeps the matching elements at strictly increasing input positions |

## Left out

- src/utils/api.js (HTTP), src/components/ConnectSlackButton.jsx (popup
  and `postMessage`), src/App.jsx (routing), src/components/DashboardHeader.jsx
  (static tab list) and src/pages/Dashboard.jsx (an older page that is never
  routed) are not part of this model. Backend calls become `ApiOutcome`
  inputs.
- Navigation is not modelled. `OAuthCallback.ButtonTarget` names the
  target paths only. The retry path `/connect` has no route in
  src/App.jsx.
- Toast expiry (src/pages/DashboardLayout.jsx:88-91) is a 3-second timer
  and is left out. As written, an earlier toast's timer can clear a newer
  toast early.
- Concurrency is not modelled. Each handler is one atomic transition.
  `Loading.CounterIsInFlight` covers the counter under any interleaving.
  Otherwise, only these interleavings are modelled:
  - the stale cache snapshot shared by the two fetches of the editing-route
    effect (`Dashboard.EditRoute`);
  - a late channel fetch in Connections (`Connections.LateFetchRepopulates`).

  Other races are not modelled. For example, two `ensureChannels` calls for
  one workspace racing from different renders, or responses arriving out
  of order.
- Dashboard.EnsureChannels: a cache key is any string. A JavaScript object
  also answers to inherited names such as `constructor`, which would read as
  cached. That case is not modelled.
- React scheduling is not modelled: re-renders, memoisation, and effects
  re-running for a new but equal object. A prop-driven effect is applied
  where the handler or prop change that triggers it happens.
- WorkspacesList.IsSelected: a workspace without `team_id` is highlighted
  in JavaScript while nothing is selected (`undefined === undefined`). The
  model takes `team_id` as always present, so with nothing selected no row
  is highlighted.
- Dashboard.Refresh: the two reloads are not awaited
  (src/pages/DashboardLayout.jsx:347-350), so they run concurrently. The
  model lets the routes reload settle last. When the workspaces reload
  settles last instead, its error toast is the one left showing.
- ChannelCache.Put: a new key always goes last. A JavaScript object lists
  integer-like keys such as `"123"` first, in ascending order, ahead of
  other keys, so such a workspace's channels would come first in
  `allChannels` (src/pages/DashboardLayout.jsx:81). Slack team ids start
  with `T` and are never integer-like, so this ordering is not modelled.
- Dashboard.EditRoute: the model cannot tell the route object already in
  the editor from an equal new one, so it always re-runs the effect's two
  `ensureChannels` calls. In JavaScript, clicking Edit on the very object
  being edited changes no state, the `[editingRoute]` effect does not run
  again, and a workspace whose channel fetch failed is not fetched again.
- RoutesList.GroupRoutes: a route with no `source_team_id` and one with an
  empty id are distinct `Map` keys in JavaScript, but both are "" here.
- CreateRouteForm.ChannelsFor: the channel options' `ch.id || ch.channel_id`
  fallback is not modelled. Channels have one `id` field.
- ChannelsList, CreateRouteForm and CreateIdentityMappingForm are modelled
  as components. The dashboard currently does not mount them (their
  elements are commented out in src/pages/DashboardLayout.jsx:294-334), so
  `Dashboard` holds no state for them.
- The Connections "Create Connection" button (src/components/Connections.jsx:204-212)
  has no click handler. Only its `disabled` condition
  (`Connections.IsFormValid`) is modelled.
- `window.confirm` and the click events are boolean inputs. Styling,
  hover effects and markup are left out.

=== FILE: channel_cache.dfy ===
/** The dashboard's per-workspace channel cache `channelsByTeam`
    (src/pages/DashboardLayout.jsx:69). A plain JavaScript object keeps its
    non-numeric keys in insertion order and `{ ...prev, [k]: v }` overwrites
    an existing key in place, so the cache is an association list with
    distinct keys in insertion order. */
module ChannelCache {
  import opened Js
  import opened Entities

  datatype Entry = Entry(teamId: string, channels: seq<Channel>)

  type Cache = seq<Entry>

  function Keys(c: Cache): set<string> {
    set i | 0 <= i < |c| :: c[i].teamId
  }

  predicate KeysDistinct(c: Cache) {
    forall i, j :: 0 <= i < j < |c| ==> c[i].teamId != c[j].teamId
  }

  /** Every cached channel carries the id of the workspace it is cached under. */
  predicate Tagged(c: Cache) {
    forall i, j :: 0 <= i < |c| && 0 <= j < |c[i].channels| ==> c[i].channels[j].teamId == c[i].teamId
  }

  /** `channelsByTeam[k]`: `Some` exactly when `k` is a key, even for an empty list. */
  function Get(c: Cache, k: string): (r: Option<seq<Channel>>)
    ensures r.Some? <==> k in Keys(c)
    ensures r.Some? ==> exists i :: 0 <= i < |c| && c[i] == Entry(k, r.value)
    decreases |c|
  {
    if |c| == 0 then None
    else if c[0].teamId == k then Some(c[0].channels)
    else
      var r := Get(c[1..], k);
      assert Keys(c) == {c[0].teamId} + Keys(c[1..]) by {
        forall x | x in Keys(c) ensures x in {c[0].teamId} + Keys(c[1..]) {
          var i :| 0 <= i < |c| && c[i].teamId == x;
          if i > 0 { assert c[1..][i - 1].teamId == x; }
        }
      }
      r
  }

  /** `{ ...prev, [k]: v }`. */
  function Put(c: Cache, k: string, v: seq<Channel>): (r: Cache)
    requires KeysDistinct(c)
    ensures KeysDistinct(r)
    ensures Keys(r) == Keys(c) + {k}
    ensures Get(r, k) == Some(v)
    ensures forall k' :: k' != k ==> Get(r, k') == Get(c, k')
    ensures k !in Keys(c) ==> r == c + [Entry(k, v)]
    ensures k in Keys(c) ==> |r| == |c|
    // an existing key is overwritten where it stands, so the key order is kept
    ensures k in Keys(c) ==> exists i :: 0 <= i < |c| && c[i].teamId == k && r == c[i := Entry(k, v)]
  {
    if k in Keys(c) then
      var i :| 0 <= i < |c| && c[i].teamId == k;
      var r := c[i := Entry(k, v)];
      assert Keys(r) == Keys(c) by {
        forall x | x in Keys(c) ensures x in Keys(r) {
          var j :| 0 <= j < |c| && c[j].teamId == x;
          assert r[j].teamId == x;
        }
      }
      GetDistinct(r, i);
      forall k' | k' != k ensures Get(r, k') == Get(c, k') {
        GetOther(c, i, Entry(k, v), k');
      }
      r
    else
      var r := c + [Entry(k, v)];
      assert Keys(r) == Keys(c) + {k} by {
        assert r[|c|].teamId == k;
        forall x | x in Keys(c) ensures x in Keys(r) {
          var j :| 0 <= j < |c| && c[j].teamId == x;
          assert r[j].teamId == x;
        }
      }
      GetDistinct(r, |c|);
      forall k' | k' != k ensures Get(r, k') == Get(c, k') {
        GetAppend(c, Entry(k, v), k');
      }
      r
  }

  /** With distinct keys, the lookup of an entry's key finds that entry. */
  lemma {:induction false} GetDistinct(c: Cache, i: nat)
    requires KeysDistinct(c)
    requires i < |c|
    ensures Get(c, c[i].teamId) == Some(c[i].channels)
    decreases |c|
  {
    if i > 0 {
      assert c[0].teamId != c[i].teamId;
      assert c[1..][i - 1] == c[i];
      GetDistinct(c[1..], i - 1);
    }
  }

  /** Replacing an entry whose key is `e.teamId` does not disturb other keys. */
  lemma {:induction false} GetOther(c: Cache, i: nat, e: Entry, k: string)
    requires i < |c| && c[i].teamId == e.teamId && k != e.teamId
    ensures Get(c[i := e], k) == Get(c, k)
    decreases |c|
  {
    if i > 0 && c[0].teamId != k {
      assert c[i := e][1..] == c[1..][i - 1 := e];
      GetOther(c[1..], i - 1, e, k);
    }
  }

  /** Appending an entry does not disturb other keys. */
  lemma {:induction false} GetAppend(c: Cache, e: Entry, k: string)
    requires k != e.teamId
    ensures Get(c + [e], k) == Get(c, k)
    decreases |c|
  {
    if |c| > 0 && c[0].teamId != k {
      assert (c + [e])[1..] == c[1..] + [e];
      GetAppend(c[1..], e, k);
    }
  }

  /** `Object.values(channelsByTeam).flat()`: every cached channel, workspace
      by workspace in insertion order (src/pages/DashboardLayout.jsx:80-83). */
  function AllChannels(c: Cache): (r: seq<Channel>)
    ensures forall ch :: ch in r <==> exists i :: 0 <= i < |c| && ch in c[i].channels
    decreases |c|
  {
    if |c| == 0 then []
    else
      var rest := AllChannels(c[1..]);
      assert forall i :: 1 <= i < |c| ==> c[i] == c[1..][i - 1];
      c[0].channels + rest
  }

  /** `allChannels` is the entries' lists concatenated in key order: one
      more entry at the end puts its channels at the end, each exactly once. */
  lemma {:induction false} AllChannelsSnoc(c: Cache, e: Entry)
    ensures AllChannels(c + [e]) == AllChannels(c) + e.channels
    decreases |c|
  {
    if |c| == 0 {
      assert c + [e] == [e];
      assert [e][1..] == [];
    } else {
      assert (c + [e])[1..] == c[1..] + [e];
      AllChannelsSnoc(c[1..], e);
    }
  }

  /** Caching a new workspace appends its channels to `allChannels`, and
      overwriting a cached one replaces its channels in place. */
  lemma {:induction false} AllChannelsAfterPut(c: Cache, k: string, v: seq<Channel>)
    requires KeysDistinct(c)
    ensures k !in Keys(c) ==> AllChannels(Put(c, k, v)) == AllChannels(c) + v
    ensures forall i :: 0 <= i < |c| && c[i].teamId == k ==>
      AllChannels(Put(c, k, v)) == AllChannels(c[..i]) + v + AllChannels(c[i + 1..])
  {
    if k !in Keys(c) {
      AllChannelsSnoc(c, Entry(k, v));
    }
    forall i | 0 <= i < |c| && c[i].teamId == k
      ensures AllChannels(Put(c, k, v)) == AllChannels(c[..i]) + v + AllChannels(c[i + 1..])
    {
      var j :| 0 <= j < |c| && c[j].teamId == k && Put(c, k, v) == c[j := Entry(k, v)];
      assert j == i;
      AllChannelsSplit(c[..i], Entry(k, v), c[i + 1..]);
      assert c[i := Entry(k, v)] == c[..i] + [Entry(k, v)] + c[i + 1..];
    }
  }

  /** `allChannels` of a cache split around one entry. */
  lemma {:induction false} AllChannelsSplit(pre: Cache, e: Entry, post: Cache)
    ensures AllChannels(pre + [e] + post) == AllChannels(pre) + e.channels + AllChannels(post)
    decreases |pre|
  {
    if |pre| == 0 {
      assert pre + [e] + post == [e] + post;
      assert ([e] + post)[1..] == post;
    } else {
      assert (pre + [e] + post)[1..] == pre[1..] + [e] + post;
      AllChannelsSplit(pre[1..], e, post);
    }
  }

  /** In a tagged cache every channel of `allChannels` names a cached workspace,
      so the route form's team filter can place it. */
  lemma AllChannelsTagged(c: Cache)
    requires Tagged(c)
    ensures forall ch :: ch in AllChannels(c) ==> ch.teamId in Keys(c)
  {
    forall ch | ch in AllChannels(c) ensures ch.teamId in Keys(c) {
      var i :| 0 <= i < |c| && ch in c[i].channels;
      var j :| 0 <= j < |c[i].channels| && c[i].channels[j] == ch;
      assert c[i].channels[j].teamId == c[i].teamId;
    }
  }
}

=== FILE: channels_list.dfy ===
/** The channel column of the workspaces tab, `ChannelsList`
    (src/components/ChannelsList.jsx): a header naming the workspace and
    one of four bodies, chosen in a fixed order of precedence. */
module ChannelsList {
  import opened Js
  import opened Entities

  /** The member line under a channel name. */
  datatype MemberLine = Members(count: int) | Unavailable

  datatype Row = Row(id: string, name: string, isPrivate: bool, members: MemberLine, selected: bool)

  datatype Content = Prompt | LoadingLine | EmptyLine | Rows(rows: seq<Row>)

  /** `num_members ?? member_count ?? members_count`
      (src/components/ChannelsList.jsx:28): the first count that is present,
      even when it is 0. */
  function MemberCount(ch: Channel): (r: Option<int>)
    ensures ch.numMembers.Some? ==> r == ch.numMembers
    ensures ch.numMembers.None? && ch.memberCount.Some? ==> r == ch.memberCount
    ensures ch.numMembers.None? && ch.memberCount.None? ==> r == ch.membersCount
  {
    Coalesce(Coalesce(ch.numMembers, ch.memberCount), ch.membersCount)
  }

  /** `memberCount ? `${memberCount} members` : 'Member count unavailable'`
      (src/components/ChannelsList.jsx:67): a count of 0 reads as unavailable. */
  function MemberLineFor(ch: Channel): (m: MemberLine)
    ensures m.Members? <==> MemberCount(ch).Some? && MemberCount(ch).value != 0
    ensures m.Members? ==> m.count == MemberCount(ch).value
  {
    var c := MemberCount(ch);
    if c.Some? && c.value != 0 then Members(c.value) else Unavailable
  }

  /** A zero under the first field name hides a real count under the others:
      `??` stops at 0, and the line then tests 0 for truthiness. */
  lemma {:induction false} ZeroCountShadows(ch: Channel)
    requires ch.numMembers == Some(0)
    ensures MemberLineFor(ch) == Unavailable
  {
  }

  /** A count is shown exactly when some field name carries a nonzero count
      and no earlier field name carries any count. */
  lemma {:induction false} CountShownIff(ch: Channel)
    ensures MemberLineFor(ch).Members? <==>
      || (ch.numMembers.Some? && ch.numMembers.value != 0)
      || (ch.numMembers.None? && ch.memberCount.Some? && ch.memberCount.value != 0)
      || (ch.numMembers.None? && ch.memberCount.None? && ch.membersCount.Some? && ch.membersCount.value != 0)
  {
  }

  /** One channel's row (src/components/ChannelsList.jsx:26-70). */
  function RowFor(ch: Channel, selectedChannelId: Option<string>): (r: Row)
    ensures r.id == ch.id && r.name == ch.name && r.isPrivate == ch.isPrivate
    ensures r.members == MemberLineFor(ch)
    ensures r.selected <==> selectedChannelId == Some(ch.id)
  {
    Row(ch.id, ch.name, ch.isPrivate, MemberLineFor(ch), selectedChannelId == Some(ch.id))
  }

  /** The body (src/components/ChannelsList.jsx:13-72): no workspace beats
      loading, loading beats an empty list, and only then are rows shown. */
  function ContentFor(selectedWorkspace: Option<Workspace>, loading: bool, channels: seq<Channel>,
                      selectedChannelId: Option<string>): (c: Content)
    ensures c == Prompt <==> selectedWorkspace.None?
    ensures c == LoadingLine <==> selectedWorkspace.Some? && loading
    ensures c == EmptyLine <==> selectedWorkspace.Some? && !loading && |channels| == 0
    ensures c.Rows? <==> selectedWorkspace.Some? && !loading && |channels| > 0
    ensures c.Rows? ==> |c.rows| == |channels|
    ensures c.Rows? ==> forall i :: 0 <= i < |channels| ==> c.rows[i] == RowFor(channels[i], selectedChannelId)
  {
    if selectedWorkspace.None? then Prompt
    else if loading then LoadingLine
    else if |channels| == 0 then EmptyLine
    else Rows(seq(|channels|, i requires 0 <= i < |channels| => RowFor(channels[i], selectedChannelId)))
  }

  predicate DistinctIds(channels: seq<Channel>) {
    forall i, j :: 0 <= i < j < |channels| ==> channels[i].id != channels[j].id
  }

  /** With distinct channel ids at most one row is highlighted, and it is
      the chosen channel's. */
  lemma {:induction false} AtMostOneSelected(selectedWorkspace: Option<Workspace>, loading: bool,
                                             channels: seq<Channel>, selectedChannelId: Option<string>)
    requires DistinctIds(channels)
    requires ContentFor(selectedWorkspace, loading, channels, selectedChannelId).Rows?
    ensures forall i, j ::
      0 <= i < j < |channels|
      && ContentFor(selectedWorkspace, loading, channels, selectedChannelId).rows[i].selected
      ==> !ContentFor(selectedWorkspace, loading, channels, selectedChannelId).rows[j].selected
  {
    var c := ContentFor(selectedWorkspace, loading, channels, selectedChannelId);
    forall i, j | 0 <= i < j < |channels| && c.rows[i].selected
      ensures !c.rows[j].selected
    {
      assert channels[i].id != channels[j].id;
    }
  }

  /** The header's `· name` suffix (src/components/ChannelsList.jsx:11,77):
      the selected workspace's label, or nothing. */
  function HeaderSuffix(selectedWorkspace: Option<Workspace>): (r: Option<string>)
    ensures selectedWorkspace.None? ==> r.None?
    ensures selectedWorkspace.Some? && Truthy(selectedWorkspace.value.teamId) ==>
      r == Some(WorkspaceLabel(selectedWorkspace.value))
    ensures r.Some? ==> Truthy(r.value)
  {
    if selectedWorkspace.Some? && Truthy(WorkspaceLabel(selectedWorkspace.value))
    then Some(WorkspaceLabel(selectedWorkspace.value))
    else None
  }

  /** A click on a row: the channel handed to `onSelectChannel`, if any
      (src/components/ChannelsList.jsx:33). */
  function SelectClick(ch: Channel, hasCallback: bool): (r: Option<Channel>)
    ensures r.Some? <==> hasCallback
    ensures r.Some? ==> r.value == ch
  {
    if hasCallback then Some(ch) else None
  }
}

=== FILE: connections.dfy ===
/** The "Connections" panel (src/components/Connections.jsx): two
    workspace/channel pickers whose channel lists are fetched whenever the
    chosen workspace changes. The two sides behave identically, so a side is
    one record and the panel holds two of them. The fetch is a parameter:
    `SelectWorkspace` reports whether one starts, `ChannelsLoaded` applies
    its outcome. */
module Connections {
  import opened Js
  import opened Entities

  const LoadingPlaceholder: string := "Loading..."
  const ChoosePlaceholder: string := "Select channel..."

  datatype Side = Side(workspace: string, channel: string, channels: seq<Channel>, loading: bool)

  datatype End = Source | Dest

  datatype State = State(showForm: bool, source: Side, dest: Side)

  const EmptySide: Side := Side("", "", [], false)

  /** The panel as mounted (src/components/Connections.jsx:5-13). */
  const Initial: State := State(false, EmptySide, EmptySide)

  function SideOf(s: State, e: End): Side {
    match e
    case Source => s.source
    case Dest => s.dest
  }

  function WithSide(s: State, e: End, side: Side): (r: State)
    ensures SideOf(r, e) == side
    ensures forall o: End :: o != e ==> SideOf(r, o) == SideOf(s, o)
    ensures r.showForm == s.showForm
  {
    match e
    case Source => s.(source := side)
    case Dest => s.(dest := side)
  }

  datatype Selected = Selected(side: Side, fetch: bool)

  /** A workspace `<select>` change (src/components/Connections.jsx:102-105,156-159)
      followed by the effect on that workspace (src/components/Connections.jsx:16-35,38-57).
      The channel is always cleared. The effect runs only when the value
      actually changed: to nothing, it empties the list; to a workspace, it
      raises `loading` and starts a fetch. */
  function SelectWorkspace(side: Side, ws: string): (r: Selected)
    ensures r.side.workspace == ws && r.side.channel == ""
    ensures r.fetch <==> ws != side.workspace && Truthy(ws)
    ensures r.fetch ==> r.side.loading && r.side.channels == side.channels
    ensures ws == side.workspace ==> r.side == side.(channel := "")
    ensures ws != side.workspace && !Truthy(ws) ==> r.side == side.(workspace := ws, channel := "", channels := [])
  {
    var picked := side.(workspace := ws, channel := "");
    if ws == side.workspace then Selected(picked, false)
    else if !Truthy(ws) then Selected(picked.(channels := []), false)
    else Selected(picked.(loading := true), true)
  }

  /** The end of a fetch: `data || []` on success, `[]` on failure, and in
      both cases `loading` drops. The outcome is applied whatever workspace
      is chosen by then. */
  function ChannelsLoaded(side: Side, outcome: ApiOutcome<Option<seq<Channel>>>): (r: Side)
    ensures !r.loading
    ensures r.workspace == side.workspace && r.channel == side.channel
    ensures outcome.Err? ==> r.channels == []
    ensures outcome.Ok? && outcome.data.Some? ==> r.channels == outcome.data.value
    ensures outcome.Ok? && outcome.data.None? ==> r.channels == []
  {
    match outcome
    case Ok(data) => side.(channels := OrEmpty(data), loading := false)
    case Err(_) => side.(channels := [], loading := false)
  }

  /** A channel `<select>` change (src/components/Connections.jsx:122,176). */
  function SelectChannel(side: Side, id: string): (r: Side)
    ensures r.channel == id
    ensures r.(channel := side.channel) == side
  {
    side.(channel := id)
  }

  /** The channel select's `disabled` (src/components/Connections.jsx:123,177). */
  predicate ChannelSelectDisabled(side: Side) {
    !Truthy(side.workspace) || side.loading
  }

  /** The placeholder option's text (src/components/Connections.jsx:130,184). */
  function Placeholder(side: Side): (t: string)
    ensures t == LoadingPlaceholder <==> side.loading
    ensures t == ChoosePlaceholder <==> !side.loading
  {
    if side.loading then LoadingPlaceholder else ChoosePlaceholder
  }

  /** `handleCreateClick` (src/components/Connections.jsx:59-61). */
  function CreateClick(s: State): (r: State)
    ensures r.showForm
    ensures r.source == s.source && r.dest == s.dest
  {
    s.(showForm := true)
  }

  /** `handleCancel` (src/components/Connections.jsx:63-71) together with the
      effects it triggers. Selections and lists are reset; the `loading`
      flags are not, since a pending fetch still owns them. */
  function Cancel(s: State): (r: State)
    ensures !r.showForm
    ensures forall e: End :: SideOf(r, e) == EmptySide.(loading := SideOf(s, e).loading)
  {
    State(false, EmptySide.(loading := s.source.loading), EmptySide.(loading := s.dest.loading))
  }

  /** `isFormValid` (src/components/Connections.jsx:73). */
  predicate IsFormValid(s: State) {
    Truthy(s.source.workspace) && Truthy(s.dest.workspace) && Truthy(s.source.channel) && Truthy(s.dest.channel)
  }

  /** Picking either workspace leaves the form invalid until that side's
      channel is chosen again. */
  lemma {:induction false} WorkspaceChangeInvalidates(s: State, e: End, ws: string)
    ensures !IsFormValid(WithSide(s, e, SelectWorkspace(SideOf(s, e), ws).side))
  {
  }

  /** After Cancel the form is invalid and both pickers show nothing. */
  lemma {:induction false} CancelClears(s: State)
    ensures !IsFormValid(Cancel(s))
    ensures Cancel(s).source.channels == [] && Cancel(s).dest.channels == []
    ensures ChannelSelectDisabled(Cancel(s).source) && ChannelSelectDisabled(Cancel(s).dest)
  {
  }

  /** The happy path of one side: choosing a new workspace disables its
      channel select until the fetch succeeds, after which the fetched list
      is offered and the select is enabled with nothing chosen. */
  lemma {:induction false} PickThenLoad(side: Side, ws: string, data: seq<Channel>)
    requires Truthy(ws) && ws != side.workspace
    ensures SelectWorkspace(side, ws).fetch
    ensures ChannelSelectDisabled(SelectWorkspace(side, ws).side)
    ensures ChannelsLoaded(SelectWorkspace(side, ws).side, Ok(Some(data)))
            == Side(ws, "", data, false)
    ensures !ChannelSelectDisabled(ChannelsLoaded(SelectWorkspace(side, ws).side, Ok(Some(data))))
  {
  }

  /** Re-choosing the workspace already chosen clears the channel but keeps
      the list and starts no fetch. */
  lemma {:induction false} SameWorkspaceKeepsList(side: Side)
    ensures !SelectWorkspace(side, side.workspace).fetch
    ensures SelectWorkspace(side, side.workspace).side.channels == side.channels
  {
  }

  /** A fetch still pending when the workspace is cleared lands anyway: the
      list is filled with the old workspace's channels although no workspace
      is chosen (the select stays disabled). */
  lemma {:induction false} LateFetchRepopulates(side: Side, ws: string, data: seq<Channel>)
    requires Truthy(ws) && ws != side.workspace
    ensures
      var begun := SelectWorkspace(side, ws).side;
      var cleared := SelectWorkspace(begun, "").side;
      var landed := ChannelsLoaded(cleared, Ok(Some(data)));
      && cleared.loading
      && landed.workspace == "" && landed.channels == data
      && ChannelSelectDisabled(landed)
  {
  }
}

=== FILE: create_mapping_form.dfy ===
/** The identity-mapping editor, `CreateIdentityMappingForm`
    (src/components/CreateIdentityMappingForm.jsx). Same shape as the route
    editor: a record of field values, `BeginSave` up to the `await`, and
    `FinishSave` after it. */
module CreateMappingForm {
  import opened Js
  import opened Entities

  const SavedMessage: string := "Mapping saved successfully."
  const SaveFailedMessage: string := "Failed to save mapping"

  datatype Form = Form(
    internalUserId: string,
    internalUsername: string,
    clientTeamId: string,
    clientUserId: string,
    clientUsername: string,
    saving: bool,
    error: Option<string>,
    success: Option<string>)

  /** The five editable fields. */
  datatype Fields = Fields(
    internalUserId: string,
    internalUsername: string,
    clientTeamId: string,
    clientUserId: string,
    clientUsername: string)

  function FieldsOf(f: Form): Fields {
    Fields(f.internalUserId, f.internalUsername, f.clientTeamId, f.clientUserId, f.clientUsername)
  }

  /** The values the `mapping` prop seeds (src/components/CreateIdentityMappingForm.jsx:34-38,43-51):
      `mapping?.x || ''` for every field. */
  function FieldsFrom(mapping: Option<Mapping>): (p: Fields)
    ensures mapping.None? ==> p == Fields("", "", "", "", "")
    ensures mapping.Some? ==>
      p == Fields(mapping.value.internalUserId, mapping.value.internalUsername, mapping.value.clientTeamId,
                  mapping.value.clientUserId, mapping.value.clientUsername)
  {
    match mapping
    case None => Fields("", "", "", "", "")
    case Some(m) =>
      Fields(Or(m.internalUserId, ""), Or(m.internalUsername, ""), Or(m.clientTeamId, ""),
             Or(m.clientUserId, ""), Or(m.clientUsername, ""))
  }

  function Init(mapping: Option<Mapping>): (f: Form)
    ensures FieldsOf(f) == FieldsFrom(mapping)
    ensures !f.saving && f.error == None && f.success == None
  {
    var p := FieldsFrom(mapping);
    Form(p.internalUserId, p.internalUsername, p.clientTeamId, p.clientUserId, p.clientUsername, false, None, None)
  }

  /** The effect on `[mapping]`: fields and messages re-seeded, `saving` kept. */
  function OnMappingChange(f: Form, mapping: Option<Mapping>): (r: Form)
    ensures FieldsOf(r) == FieldsFrom(mapping)
    ensures r.saving == f.saving && r.error == None && r.success == None
  {
    Init(mapping).(saving := f.saving)
  }

  datatype WorkspaceOption = WorkspaceOption(value: string, text: string)

  /** `workspaceOptions` (src/components/CreateIdentityMappingForm.jsx:53-56). */
  function WorkspaceOptions(workspaces: seq<Workspace>): (r: seq<WorkspaceOption>)
    ensures |r| == |workspaces|
    ensures forall i :: 0 <= i < |r| ==>
      r[i].value == workspaces[i].teamId
      && (Truthy(workspaces[i].teamName) ==> r[i].text == workspaces[i].teamName)
      && (!Truthy(workspaces[i].teamName) ==> r[i].text == workspaces[i].teamId)
  {
    seq(|workspaces|, i requires 0 <= i < |workspaces| =>
      WorkspaceOption(workspaces[i].teamId, WorkspaceLabel(workspaces[i])))
  }

  /** `isValid` (src/components/CreateIdentityMappingForm.jsx:58-59): all five required. */
  predicate IsValid(f: Form) {
    Truthy(f.internalUserId) && Truthy(f.internalUsername) && Truthy(f.clientTeamId)
    && Truthy(f.clientUserId) && Truthy(f.clientUsername)
  }

  predicate SaveDisabled(f: Form) {
    !IsValid(f) || f.saving
  }

  /** The mapping key (src/components/CreateIdentityMappingForm.jsx:69). */
  function Key(internalUserId: string, clientTeamId: string): (k: string)
    ensures |k| == |internalUserId| + 1 + |clientTeamId|
    ensures k[..|internalUserId|] == internalUserId
    ensures k[|internalUserId|] == ':'
    ensures k[|internalUserId| + 1..] == clientTeamId
  {
    internalUserId + ":" + clientTeamId
  }

  /** Everything before the first ':' and everything after it. */
  function SplitKey(k: string): (r: (string, string))
    decreases |k|
  {
    if |k| == 0 then ("", "")
    else if k[0] == ':' then ("", k[1..])
    else
      var rest := SplitKey(k[1..]);
      ([k[0]] + rest.0, rest.1)
  }

  /** The key determines the user and workspace it was built from, provided
      the user id holds no ':' (as Slack user ids do not). */
  lemma {:induction false} KeyRoundTrip(internalUserId: string, clientTeamId: string)
    requires ':' !in internalUserId
    ensures SplitKey(Key(internalUserId, clientTeamId)) == (internalUserId, clientTeamId)
    decreases |internalUserId|
  {
    var k := Key(internalUserId, clientTeamId);
    if |internalUserId| == 0 {
      assert k == ":" + clientTeamId;
      assert k[1..] == clientTeamId;
    } else {
      assert k[0] == internalUserId[0];
      assert k[1..] == Key(internalUserId[1..], clientTeamId);
      KeyRoundTrip(internalUserId[1..], clientTeamId);
      assert [internalUserId[0]] + internalUserId[1..] == internalUserId;
    }
  }

  /** `KeyRoundTrip` in implication form, for use inside expressions. */
  lemma {:induction false} KeyRoundTripWhen(internalUserId: string, clientTeamId: string)
    ensures ':' !in internalUserId ==> SplitKey(Key(internalUserId, clientTeamId)) == (internalUserId, clientTeamId)
  {
    if ':' !in internalUserId {
      KeyRoundTrip(internalUserId, clientTeamId);
    }
  }

  /** Without that proviso two different mappings can share a key. */
  lemma KeyCollision()
    ensures Key("U1:T1", "T2") == Key("U1", "T1:T2")
  {
  }

  /** The object handed to `onSave` (src/components/CreateIdentityMappingForm.jsx:69-77). */
  function PayloadOf(f: Form): (m: Mapping)
    ensures m.internalUserId == f.internalUserId && m.internalUsername == f.internalUsername
    ensures m.clientTeamId == f.clientTeamId && m.clientUserId == f.clientUserId
    ensures m.clientUsername == f.clientUsername
    // the key names both halves, recoverably when the user id has no ':'
    ensures |m.key| == |f.internalUserId| + 1 + |f.clientTeamId|
    ensures ':' !in f.internalUserId ==> SplitKey(m.key) == (f.internalUserId, f.clientTeamId)
  {
    KeyRoundTripWhen(f.internalUserId, f.clientTeamId);
    Mapping(Key(f.internalUserId, f.clientTeamId), f.internalUserId, f.internalUsername,
            f.clientTeamId, f.clientUserId, f.clientUsername)
  }

  datatype Begun = Begun(form: Form, call: Option<Mapping>)

  /** `handleSave` up to `await onSave(data)` (src/components/CreateIdentityMappingForm.jsx:61-80). */
  function BeginSave(f: Form): (r: Begun)
    ensures SaveDisabled(f) ==> r.call == None && r.form == f
    ensures !SaveDisabled(f) ==>
      && r.call.Some?
      && r.call.value.key == f.internalUserId + ":" + f.clientTeamId
      && FieldsFrom(r.call) == FieldsOf(f)
      && r.form == f.(saving := true, error := None, success := None)
  {
    if SaveDisabled(f) then Begun(f, None)
    else Begun(f.(saving := true, error := None, success := None), Some(PayloadOf(f)))
  }

  /** A second submit while the first is pending calls nothing. */
  lemma {:induction false} NoDoubleSubmit(f: Form)
    ensures BeginSave(BeginSave(f).form).call == None
  {
  }

  /** Editing the mapping just saved shows the same five values, and the key
      splits back into its user and workspace. */
  lemma {:induction false} PayloadRoundTrip(f: Form)
    requires IsValid(f) && ':' !in f.internalUserId
    ensures FieldsFrom(Some(PayloadOf(f))) == FieldsOf(f)
    ensures SplitKey(PayloadOf(f).key) == (f.internalUserId, f.clientTeamId)
  {
    KeyRoundTrip(f.internalUserId, f.clientTeamId);
  }

  datatype Finished = Finished(form: Form, cancelled: bool)

  /** `handleSave` after `onSave` settles (src/components/CreateIdentityMappingForm.jsx:79-87). */
  function FinishSave(f: Form, saved: ApiOutcome<()>, hasOnCancel: bool): (r: Finished)
    ensures !r.form.saving
    ensures FieldsOf(r.form) == FieldsOf(f)
    ensures saved.Ok? ==> r.form.success == Some(SavedMessage) && r.form.error == f.error && r.cancelled == hasOnCancel
    ensures saved.Err? ==>
      && r.form.error == Some(ErrorText(saved.message, SaveFailedMessage))
      && r.form.success == f.success && !r.cancelled
    ensures saved.Err? ==> Truthy(r.form.error.value)
  {
    match saved
    case Ok(_) => Finished(f.(success := Some(SavedMessage), saving := false), hasOnCancel)
    case Err(msg) => Finished(f.(error := Some(ErrorText(msg, SaveFailedMessage)), saving := false), false)
  }
}

=== FILE: create_route_form.dfy ===
/** The route editor, `CreateRouteForm` (src/components/CreateRouteForm.jsx).
    Its local state is a record; each event handler is a function on it. The
    asynchronous `handleSave` is split at its `await`: `BeginSave` runs up to
    the call of `onSave`, `FinishSave` runs once that promise settles. */
module CreateRouteForm {
  import opened Js
  import opened Entities
  import opened Seqs

  const DefaultDirection: string := "inbound"
  const SavedMessage: string := "Route saved successfully."
  const SaveFailedMessage: string := "Failed to save route"

  datatype Form = Form(
    sourceTeamId: string,
    destTeamId: string,
    sourceChannelId: string,
    destChannelId: string,
    direction: string,
    name: string,
    saving: bool,
    error: Option<string>,
    success: Option<string>)

  /** The object handed to `onSave` (src/components/CreateRouteForm.jsx:75-82). */
  datatype Payload = Payload(
    sourceTeamId: string,
    sourceChannelId: string,
    destTeamId: string,
    destChannelId: string,
    direction: string,
    name: string)

  /** The editable fields of a form, for comparing two forms field by field. */
  function Fields(f: Form): Payload {
    Payload(f.sourceTeamId, f.sourceChannelId, f.destTeamId, f.destChannelId, f.direction, f.name)
  }

  /** The field values the `route` prop seeds (src/components/CreateRouteForm.jsx:34-39,44-53):
      `route?.x || ''`, and `route?.direction || 'inbound'`. */
  function FieldsFrom(route: Option<Route>): (p: Payload)
    ensures route.None? ==> p == Payload("", "", "", "", DefaultDirection, "")
    ensures route.Some? ==>
      && p.sourceTeamId == route.value.sourceTeamId
      && p.sourceChannelId == route.value.sourceChannelId
      && p.destTeamId == route.value.destTeamId
      && p.destChannelId == route.value.destChannelId
      && p.name == route.value.name
      && (Truthy(route.value.direction) ==> p.direction == route.value.direction)
      && (!Truthy(route.value.direction) ==> p.direction == DefaultDirection)
    ensures Truthy(p.direction)
  {
    match route
    case None => Payload("", "", "", "", DefaultDirection, "")
    case Some(r) =>
      Payload(Or(r.sourceTeamId, ""), Or(r.sourceChannelId, ""), Or(r.destTeamId, ""),
              Or(r.destChannelId, ""), Or(r.direction, DefaultDirection), Or(r.name, ""))
  }

  /** The form as first mounted. */
  function Init(route: Option<Route>): (f: Form)
    ensures Fields(f) == FieldsFrom(route)
    ensures !f.saving && f.error == None && f.success == None
  {
    var p := FieldsFrom(route);
    Form(p.sourceTeamId, p.destTeamId, p.sourceChannelId, p.destChannelId, p.direction, p.name, false, None, None)
  }

  /** The effect on `[route]` (src/components/CreateRouteForm.jsx:44-53):
      every field and both messages are reset; `saving` is left alone. */
  function OnRouteChange(f: Form, route: Option<Route>): (r: Form)
    ensures Fields(r) == FieldsFrom(route)
    ensures r.saving == f.saving && r.error == None && r.success == None
  {
    Init(route).(saving := f.saving)
  }

  /** `sourceChannels` / `destChannels` (src/components/CreateRouteForm.jsx:55-63):
      nothing before a workspace is chosen, otherwise the channels that carry
      no workspace or carry this one. */
  function ChannelsFor(channels: seq<Channel>, teamId: string): (r: seq<Channel>)
    ensures !Truthy(teamId) ==> r == []
    ensures forall i :: 0 <= i < |r| ==> r[i] in channels && Offered(teamId)(r[i])
    ensures Truthy(teamId) ==> forall n :: 0 <= n < |channels| && Offered(teamId)(channels[n]) ==> channels[n] in r
  {
    if !Truthy(teamId) then [] else Filter(channels, Offered(teamId))
  }

  /** The filter's test: the channel carries no workspace or this one. */
  function Offered(teamId: string): Channel -> bool {
    (ch: Channel) => !Truthy(ch.teamId) || ch.teamId == teamId
  }

  /** The channel filter pinned down by position: without a workspace
      nothing; otherwise the `i`-th offered channel is the input channel at the
      `i`-th matching position, so every matching channel appears once per
      occurrence, in input order. */
  lemma {:induction false} ChannelsForSpec(channels: seq<Channel>, teamId: string)
    ensures !Truthy(teamId) ==> ChannelsFor(channels, teamId) == []
    ensures Truthy(teamId) ==> |ChannelsFor(channels, teamId)| == |MatchIndices(channels, Offered(teamId))|
    ensures Truthy(teamId) ==> forall i :: 0 <= i < |ChannelsFor(channels, teamId)| ==>
      ChannelsFor(channels, teamId)[i] == channels[MatchIndices(channels, Offered(teamId))[i]]
  {
    if Truthy(teamId) {
      FilterKeepsOrder(channels, Offered(teamId));
    }
  }

  /** `isValid` (src/components/CreateRouteForm.jsx:65-66): every field but
      the name is required. */
  predicate IsValid(f: Form) {
    Truthy(f.sourceTeamId) && Truthy(f.destTeamId) && Truthy(f.sourceChannelId)
    && Truthy(f.destChannelId) && Truthy(f.direction)
  }

  /** The Save button's `disabled` (src/components/CreateRouteForm.jsx:208). */
  predicate SaveDisabled(f: Form) {
    !IsValid(f) || f.saving
  }

  /** A channel select's `disabled`: no workspace, or no channel to offer
      (src/components/CreateRouteForm.jsx:134,170). */
  predicate ChannelSelectDisabled(teamId: string, offered: seq<Channel>) {
    !Truthy(teamId) || |offered| == 0
  }

  /** Choosing a source workspace clears the source channel and nothing else
      (src/components/CreateRouteForm.jsx:115-118). */
  function SetSourceTeam(f: Form, teamId: string): (r: Form)
    ensures r.sourceTeamId == teamId && r.sourceChannelId == ""
    ensures r.(sourceTeamId := f.sourceTeamId, sourceChannelId := f.sourceChannelId) == f
  {
    f.(sourceTeamId := teamId, sourceChannelId := "")
  }

  /** Choosing a destination workspace clears the destination channel and
      nothing else (src/components/CreateRouteForm.jsx:151-154). */
  function SetDestTeam(f: Form, teamId: string): (r: Form)
    ensures r.destTeamId == teamId && r.destChannelId == ""
    ensures r.(destTeamId := f.destTeamId, destChannelId := f.destChannelId) == f
  {
    f.(destTeamId := teamId, destChannelId := "")
  }

  /** A workspace change always leaves the form invalid until a channel of
      that side is chosen again. */
  lemma {:induction false} TeamChangeInvalidates(f: Form, teamId: string)
    ensures !IsValid(SetSourceTeam(f, teamId))
    ensures !IsValid(SetDestTeam(f, teamId))
  {
  }

  datatype Begun = Begun(form: Form, call: Option<Payload>)

  /** `handleSave` up to `await onSave(data)` (src/components/CreateRouteForm.jsx:68-82):
      an invalid or already-saving form calls nothing; otherwise the six
      fields go to `onSave` untransformed and the form is marked saving. */
  function BeginSave(f: Form): (r: Begun)
    ensures SaveDisabled(f) ==> r.call == None && r.form == f
    ensures !SaveDisabled(f) ==>
      && r.call == Some(Fields(f))
      && r.form == f.(saving := true, error := None, success := None)
  {
    if SaveDisabled(f) then Begun(f, None)
    else Begun(f.(saving := true, error := None, success := None), Some(Fields(f)))
  }

  /** A second submit while the first is pending calls nothing. */
  lemma {:induction false} NoDoubleSubmit(f: Form)
    ensures BeginSave(BeginSave(f).form).call == None
  {
  }

  datatype Finished = Finished(form: Form, cancelled: bool)

  /** `handleSave` after `onSave` settles (src/components/CreateRouteForm.jsx:84-94):
      on success the success message is set and `onCancel` (when given) is
      called; on rejection the message is the rejection's or the fallback.
      Either way `saving` ends false. */
  function FinishSave(f: Form, saved: ApiOutcome<()>, hasOnCancel: bool): (r: Finished)
    ensures !r.form.saving
    ensures Fields(r.form) == Fields(f)
    ensures saved.Ok? ==> r.form.success == Some(SavedMessage) && r.form.error == f.error && r.cancelled == hasOnCancel
    ensures saved.Err? ==>
      && r.form.error == Some(ErrorText(saved.message, SaveFailedMessage))
      && r.form.success == f.success && !r.cancelled
    ensures saved.Err? ==> Truthy(r.form.error.value)
  {
    match saved
    case Ok(_) => Finished(f.(success := Some(SavedMessage), saving := false), hasOnCancel)
    case Err(msg) => Finished(f.(error := Some(ErrorText(msg, SaveFailedMessage)), saving := false), false)
  }

  /** The route a payload describes once the backend stores it. */
  function StoredRoute(p: Payload, routeId: string): Route {
    Route(routeId, p.sourceTeamId, "", p.sourceChannelId, p.destTeamId, "", p.destChannelId, p.direction, p.name, None)
  }

  /** Re-opening a saved route in the editor shows exactly what was saved:
      the payload of a valid form, stored and fed back as the `route` prop,
      reproduces every field, including an empty name. */
  lemma {:induction false} PayloadRoundTrip(f: Form, routeId: string)
    requires IsValid(f)
    ensures FieldsFrom(Some(StoredRoute(Fields(f), routeId))) == Fields(f)
  {
  }
}

=== FILE: dashboard.dfy ===
/** The dashboard orchestrator, `DashboardLayout`
    (src/pages/DashboardLayout.jsx). It owns every remote collection, the
    channel cache, selection and tab state, the editing slots, the loading
    counter and the toast. Each asynchronous handler is modelled as one
    transition from the state before it starts to the state after its
    `finally` has run, given the outcomes of the backend calls it awaits;
    interleavings of handlers are covered by module Loading. */
module Dashboard {
  import opened Js
  import opened Entities
  import opened ChannelCache
  import Loading

  datatype Tab = WorkspacesTab | RoutesTab | MappingsTab

  datatype ToastKind = Success | Error

  datatype Toast = Toast(message: string, kind: ToastKind)

  datatype State = State(
    workspaces: seq<Workspace>,
    routes: seq<Route>,
    mappings: seq<Mapping>,
    channelsByTeam: Cache,
    selectedWorkspace: Option<Workspace>,
    selectedChannelId: Option<string>,
    activeTab: Tab,
    editingRoute: Option<Route>,
    editingMapping: Option<Mapping>,
    loadingCount: nat,
    toast: Option<Toast>)

  /** The state every transition keeps: a well-formed channel cache whose
      channels are tagged with the workspace they were fetched for. */
  predicate Inv(s: State) {
    KeysDistinct(s.channelsByTeam) && Tagged(s.channelsByTeam)
  }

  /** The `useState` initial values (src/pages/DashboardLayout.jsx:66-76). */
  function Initial(): (s: State)
    ensures Inv(s)
    ensures s.loadingCount == 0 && !Loading.OverlayShown(s.loadingCount)
    ensures s.activeTab == WorkspacesTab && s.toast == None
  {
    State([], [], [], [], None, None, WorkspacesTab, None, None, 0, None)
  }

  /** Whether the blocking overlay is shown. */
  predicate Busy(s: State) {
    Loading.OverlayShown(s.loadingCount)
  }

  function StartLoading(s: State): State {
    s.(loadingCount := Loading.Start(s.loadingCount))
  }

  function StopLoading(s: State): State {
    s.(loadingCount := Loading.Stop(s.loadingCount))
  }

  /** `showToast`: a new toast replaces the visible one. Its 3-second expiry
      is a timer and is not modelled. */
  function ShowToast(s: State, message: string, kind: ToastKind): State {
    s.(toast := Some(Toast(message, kind)))
  }

  /** `loadWorkspaces` (src/pages/DashboardLayout.jsx:93-104). */
  function LoadWorkspaces(s: State, fetched: ApiOutcome<Option<seq<Workspace>>>): (r: State)
    ensures r.loadingCount == s.loadingCount
    ensures fetched.Ok? ==> r.workspaces == OrEmpty(fetched.data) && r.toast == s.toast
    ensures fetched.Err? ==> r.workspaces == s.workspaces && r.toast == Some(Toast("Failed to load workspaces", Error))
    ensures r.(workspaces := s.workspaces, toast := s.toast) == s
  {
    var t := StartLoading(s);
    var t := match fetched
      case Ok(data) => t.(workspaces := OrEmpty(data))
      case Err(_) => ShowToast(t, "Failed to load workspaces", Error);
    StopLoading(t)
  }

  /** `loadRoutes` (src/pages/DashboardLayout.jsx:106-117). */
  function LoadRoutes(s: State, fetched: ApiOutcome<Option<seq<Route>>>): (r: State)
    ensures r.loadingCount == s.loadingCount
    ensures fetched.Ok? ==> r.routes == OrEmpty(fetched.data) && r.toast == s.toast
    ensures fetched.Err? ==> r.routes == s.routes && r.toast == Some(Toast("Failed to load routes", Error))
    ensures r.(routes := s.routes, toast := s.toast) == s
  {
    var t := StartLoading(s);
    var t := match fetched
      case Ok(data) => t.(routes := OrEmpty(data))
      case Err(_) => ShowToast(t, "Failed to load routes", Error);
    StopLoading(t)
  }

  /** `loadIdentityMappings` (src/pages/DashboardLayout.jsx:119-130). */
  function LoadMappings(s: State, fetched: ApiOutcome<Option<seq<Mapping>>>): (r: State)
    ensures r.loadingCount == s.loadingCount
    ensures fetched.Ok? ==> r.mappings == OrEmpty(fetched.data) && r.toast == s.toast
    ensures fetched.Err? ==> r.mappings == s.mappings && r.toast == Some(Toast("Failed to load mappings", Error))
    ensures r.(mappings := s.mappings, toast := s.toast) == s
  {
    var t := StartLoading(s);
    var t := match fetched
      case Ok(data) => t.(mappings := OrEmpty(data))
      case Err(_) => ShowToast(t, "Failed to load mappings", Error);
    StopLoading(t)
  }

  /** The mount-time `loadAll` (src/pages/DashboardLayout.jsx:147-167): the
      three fetches are joined with `Promise.all`, so one failure discards
      the other two results. */
  function LoadAll(
    s: State,
    ws: ApiOutcome<Option<seq<Workspace>>>,
    rts: ApiOutcome<Option<seq<Route>>>,
    ms: ApiOutcome<Option<seq<Mapping>>>): (r: State)
    ensures r.loadingCount == s.loadingCount
    ensures ws.Ok? && rts.Ok? && ms.Ok? ==>
      r.workspaces == OrEmpty(ws.data) && r.routes == OrEmpty(rts.data)
      && r.mappings == OrEmpty(ms.data) && r.toast == s.toast
    ensures !(ws.Ok? && rts.Ok? && ms.Ok?) ==>
      r.workspaces == s.workspaces && r.routes == s.routes && r.mappings == s.mappings
      && r.toast == Some(Toast("Failed to load data", Error))
    ensures r.(workspaces := s.workspaces, routes := s.routes, mappings := s.mappings, toast := s.toast) == s
  {
    var t := StartLoading(s);
    var t :=
      if ws.Ok? && rts.Ok? && ms.Ok? then
        t.(workspaces := OrEmpty(ws.data), routes := OrEmpty(rts.data), mappings := OrEmpty(ms.data))
      else ShowToast(t, "Failed to load data", Error);
    StopLoading(t)
  }

  /** `(data || []).map(ch => ({ ...ch, team_id }))`. */
  function TagChannels(channels: seq<Channel>, teamId: string): (r: seq<Channel>)
    ensures |r| == |channels|
    ensures forall i :: 0 <= i < |r| ==> r[i].teamId == teamId && r[i].(teamId := channels[i].teamId) == channels[i]
  {
    seq(|channels|, i requires 0 <= i < |channels| => channels[i].(teamId := teamId))
  }

  /** `ensureChannels(team_id)` run against the cache `seen` its closure
      captured, updating the current state `s` (src/pages/DashboardLayout.jsx:132-145).
      `seen` differs from `s.channelsByTeam` only when two calls share one
      render, as in the editing-route effect. */
  function EnsureChannelsFrom(seen: Cache, s: State, teamId: string, fetched: ApiOutcome<Option<seq<Channel>>>): (r: State)
    requires Inv(s)
    ensures Inv(r)
    ensures r.loadingCount == s.loadingCount
    ensures r.(channelsByTeam := s.channelsByTeam, toast := s.toast) == s
    // the skip test reads the captured `seen`, not the current cache
    ensures !Truthy(teamId) || teamId in Keys(seen) ==> r == s
    // a success writes the key into the current cache, even when it is already there
    ensures Truthy(teamId) && teamId !in Keys(seen) && fetched.Ok? ==>
      && Keys(r.channelsByTeam) == Keys(s.channelsByTeam) + {teamId}
      && Get(r.channelsByTeam, teamId) == Some(TagChannels(OrEmpty(fetched.data), teamId))
      && (forall k :: k != teamId ==> Get(r.channelsByTeam, k) == Get(s.channelsByTeam, k))
      && r.toast == s.toast
    // a failure leaves the current cache alone and shows the error toast
    ensures Truthy(teamId) && teamId !in Keys(seen) && fetched.Err? ==>
      r.channelsByTeam == s.channelsByTeam && r.toast == Some(Toast("Failed to load channels", Error))
  {
    if !Truthy(teamId) || Get(seen, teamId).Some? then s
    else
      var t := StartLoading(s);
      var t := match fetched
        case Ok(data) =>
          var tagged := TagChannels(OrEmpty(data), teamId);
          var cache := Put(t.channelsByTeam, teamId, tagged);
          assert Tagged(cache) by {
            forall i, j | 0 <= i < |cache| && 0 <= j < |cache[i].channels|
              ensures cache[i].channels[j].teamId == cache[i].teamId
            {
              var k := cache[i].teamId;
              GetDistinct(cache, i);
              if k != teamId {
                var i0 :| 0 <= i0 < |t.channelsByTeam| && t.channelsByTeam[i0] == Entry(k, cache[i].channels);
              }
            }
          }
          t.(channelsByTeam := cache)
        case Err(_) => ShowToast(t, "Failed to load channels", Error);
      StopLoading(t)
  }

  /** `ensureChannels(team_id)` from the current render. */
  function EnsureChannels(s: State, teamId: string, fetched: ApiOutcome<Option<seq<Channel>>>): (r: State)
    requires Inv(s)
    ensures Inv(r)
    ensures r.loadingCount == s.loadingCount
    ensures r.(channelsByTeam := s.channelsByTeam, toast := s.toast) == s
    // a falsy id, or one already cached (even as an empty list), is a no-op
    ensures !Truthy(teamId) || teamId in Keys(s.channelsByTeam) ==> r == s
    // a successful fetch adds exactly that key, tagged, and nothing else
    ensures Truthy(teamId) && teamId !in Keys(s.channelsByTeam) && fetched.Ok? ==>
      && Keys(r.channelsByTeam) == Keys(s.channelsByTeam) + {teamId}
      && Get(r.channelsByTeam, teamId) == Some(TagChannels(OrEmpty(fetched.data), teamId))
      && (forall k :: k != teamId ==> Get(r.channelsByTeam, k) == Get(s.channelsByTeam, k))
      && r.toast == s.toast
    // a failed fetch leaves the cache as it was, so the next call fetches again
    ensures Truthy(teamId) && teamId !in Keys(s.channelsByTeam) && fetched.Err? ==>
      r.channelsByTeam == s.channelsByTeam && r.toast == Some(Toast("Failed to load channels", Error))
  {
    EnsureChannelsFrom(s.channelsByTeam, s, teamId, fetched)
  }

  /** Once a workspace's channels are cached, asking again issues no request:
      the result is the same whatever the backend would have answered. */
  lemma EnsureChannelsMemoised(s: State, teamId: string, first: ApiOutcome<Option<seq<Channel>>>,
                               again: ApiOutcome<Option<seq<Channel>>>)
    requires Inv(s) && first.Ok?
    ensures var s1 := EnsureChannels(s, teamId, first);
      EnsureChannels(s1, teamId, again) == s1
  {
  }

  /** After a failed fetch the workspace is still uncached, so a later
      successful call fills it. */
  lemma EnsureChannelsRetriesAfterFailure(s: State, teamId: string, msg: string, data: Option<seq<Channel>>)
    requires Inv(s) && Truthy(teamId) && teamId !in Keys(s.channelsByTeam)
    ensures var s1 := EnsureChannels(s, teamId, Err(msg));
      Get(EnsureChannels(s1, teamId, Ok(data)).channelsByTeam, teamId) == Some(TagChannels(OrEmpty(data), teamId))
  {
  }

  /** A workspace id `ensureChannels` would fetch: present and not yet cached. */
  predicate Uncached(s: State, teamId: string) {
    Truthy(teamId) && teamId !in Keys(s.channelsByTeam)
  }

  /** `handleSelectWorkspace` (src/pages/DashboardLayout.jsx:169-174). */
  function SelectWorkspace(s: State, ws: Workspace, fetched: ApiOutcome<Option<seq<Channel>>>): (r: State)
    requires Inv(s)
    ensures Inv(r)
    ensures r.selectedWorkspace == Some(ws) && r.selectedChannelId == None && r.activeTab == WorkspacesTab
    ensures r.loadingCount == s.loadingCount
    ensures r.editingRoute == s.editingRoute && r.editingMapping == s.editingMapping
    ensures r.workspaces == s.workspaces && r.routes == s.routes && r.mappings == s.mappings
    ensures Keys(s.channelsByTeam) <= Keys(r.channelsByTeam)
    ensures forall k :: k in Keys(s.channelsByTeam) ==> Get(r.channelsByTeam, k) == Get(s.channelsByTeam, k)
    ensures Truthy(ws.teamId) && (ws.teamId in Keys(s.channelsByTeam) || fetched.Ok?) ==>
      ws.teamId in Keys(r.channelsByTeam)
    // an uncached workspace gets its fetched channels, tagged, or an error toast
    ensures Uncached(s, ws.teamId) && fetched.Ok? ==>
      Get(r.channelsByTeam, ws.teamId) == Some(TagChannels(OrEmpty(fetched.data), ws.teamId)) && r.toast == s.toast
    ensures Uncached(s, ws.teamId) && fetched.Err? ==>
      r.channelsByTeam == s.channelsByTeam && r.toast == Some(Toast("Failed to load channels", Error))
    ensures !Uncached(s, ws.teamId) ==> r.channelsByTeam == s.channelsByTeam && r.toast == s.toast
  {
    var t := s.(selectedWorkspace := Some(ws), selectedChannelId := None, activeTab := WorkspacesTab);
    EnsureChannels(t, ws.teamId, fetched)
  }

  /** Selecting a workspace again once its channels arrived changes nothing,
      whatever the backend would answer the second time. */
  lemma {:induction false} SelectWorkspaceIdempotent(s: State, ws: Workspace, first: ApiOutcome<Option<seq<Channel>>>,
                                                     again: ApiOutcome<Option<seq<Channel>>>)
    requires Inv(s) && first.Ok?
    ensures var s1 := SelectWorkspace(s, ws, first);
      SelectWorkspace(s1, ws, again) == s1
  {
  }

  /** `handleMarkInternal` (src/pages/DashboardLayout.jsx:176-188). The
      reload's own failure is swallowed by `loadWorkspaces`, so the success
      toast replaces its error toast. */
  function MarkInternal(s: State, ws: Workspace, marked: ApiOutcome<()>,
                        reloaded: ApiOutcome<Option<seq<Workspace>>>): (r: State)
    ensures r.loadingCount == s.loadingCount
    ensures marked.Ok? ==>
      && r.toast == Some(Toast("Workspace marked as internal", Success))
      && r.workspaces == (if reloaded.Ok? then OrEmpty(reloaded.data) else s.workspaces)
    ensures marked.Err? ==> r.toast == Some(Toast("Failed to mark internal", Error)) && r.workspaces == s.workspaces
    ensures r.(workspaces := s.workspaces, toast := s.toast) == s
  {
    var t := StartLoading(s);
    var t := match marked
      case Ok(_) => ShowToast(LoadWorkspaces(t, reloaded), "Workspace marked as internal", Success)
      case Err(_) => ShowToast(t, "Failed to mark internal", Error);
    StopLoading(t)
  }

  /** The state after a save handler, and the rejection it re-throws to the
      form (`None` when it resolves). */
  datatype Saved = Saved(state: State, rethrown: Option<string>)

  /** `handleSaveRoute` (src/pages/DashboardLayout.jsx:190-204). The route
      payload itself goes to the backend and is not retained here. */
  function SaveRoute(s: State, created: ApiOutcome<()>, reloaded: ApiOutcome<Option<seq<Route>>>): (r: Saved)
    ensures r.state.loadingCount == s.loadingCount
    ensures created.Ok? ==>
      && r.rethrown == None
      && r.state.editingRoute == None
      && r.state.toast == Some(Toast("Route saved", Success))
      && r.state.routes == (if reloaded.Ok? then OrEmpty(reloaded.data) else s.routes)
    ensures created.Err? ==>
      && r.rethrown == Some(created.message)
      && r.state.editingRoute == s.editingRoute
      && r.state.routes == s.routes
      && r.state.toast == Some(Toast("Failed to save route", Error))
    ensures r.state.(routes := s.routes, editingRoute := s.editingRoute, toast := s.toast) == s
  {
    var t := StartLoading(s);
    match created
    case Ok(_) =>
      var t := ShowToast(LoadRoutes(t, reloaded).(editingRoute := None), "Route saved", Success);
      Saved(StopLoading(t), None)
    case Err(msg) =>
      Saved(StopLoading(ShowToast(t, "Failed to save route", Error)), Some(msg))
  }

  /** `handleDeleteRoute` (src/pages/DashboardLayout.jsx:206-221): the
      editing slot is cleared only when it holds the deleted route. */
  function DeleteRoute(s: State, route: Route, deleted: ApiOutcome<()>,
                       reloaded: ApiOutcome<Option<seq<Route>>>): (r: State)
    ensures r.loadingCount == s.loadingCount
    ensures deleted.Ok? ==>
      && r.toast == Some(Toast("Route deleted", Success))
      && r.routes == (if reloaded.Ok? then OrEmpty(reloaded.data) else s.routes)
      && (r.editingRoute == None <==> s.editingRoute == None || s.editingRoute.value.routeId == route.routeId)
      && (r.editingRoute != None ==> r.editingRoute == s.editingRoute)
    ensures deleted.Err? ==>
      r.routes == s.routes && r.editingRoute == s.editingRoute
      && r.toast == Some(Toast("Failed to delete route", Error))
    ensures r.(routes := s.routes, editingRoute := s.editingRoute, toast := s.toast) == s
  {
    var t := StartLoading(s);
    var t := match deleted
      case Ok(_) =>
        var u := ShowToast(LoadRoutes(t, reloaded), "Route deleted", Success);
        if s.editingRoute.Some? && s.editingRoute.value.routeId == route.routeId then u.(editingRoute := None) else u
      case Err(_) => ShowToast(t, "Failed to delete route", Error);
    StopLoading(t)
  }

  /** `handleSaveMapping` (src/pages/DashboardLayout.jsx:223-237). */
  function SaveMapping(s: State, created: ApiOutcome<()>, reloaded: ApiOutcome<Option<seq<Mapping>>>): (r: Saved)
    ensures r.state.loadingCount == s.loadingCount
    ensures created.Ok? ==>
      && r.rethrown == None
      && r.state.editingMapping == None
      && r.state.toast == Some(Toast("Mapping saved", Success))
      && r.state.mappings == (if reloaded.Ok? then OrEmpty(reloaded.data) else s.mappings)
    ensures created.Err? ==>
      && r.rethrown == Some(created.message)
      && r.state.editingMapping == s.editingMapping
      && r.state.mappings == s.mappings
      && r.state.toast == Some(Toast("Failed to save mapping", Error))
    ensures r.state.(mappings := s.mappings, editingMapping := s.editingMapping, toast := s.toast) == s
  {
    var t := StartLoading(s);
    match created
    case Ok(_) =>
      var t := ShowToast(LoadMappings(t, reloaded).(editingMapping := None), "Mapping saved", Success);
      Saved(StopLoading(t), None)
    case Err(msg) =>
      Saved(StopLoading(ShowToast(t, "Failed to save mapping", Error)), Some(msg))
  }

  /** `handleDeleteMapping` (src/pages/DashboardLayout.jsx:239-254), keyed by `key`. */
  function DeleteMapping(s: State, mapping: Mapping, deleted: ApiOutcome<()>,
                         reloaded: ApiOutcome<Option<seq<Mapping>>>): (r: State)
    ensures r.loadingCount == s.loadingCount
    ensures deleted.Ok? ==>
      && r.toast == Some(Toast("Mapping deleted", Success))
      && r.mappings == (if reloaded.Ok? then OrEmpty(reloaded.data) else s.mappings)
      && (r.editingMapping == None <==> s.editingMapping == None || s.editingMapping.value.key == mapping.key)
      && (r.editingMapping != None ==> r.editingMapping == s.editingMapping)
    ensures deleted.Err? ==>
      r.mappings == s.mappings && r.editingMapping == s.editingMapping
      && r.toast == Some(Toast("Failed to delete mapping", Error))
    ensures r.(mappings := s.mappings, editingMapping := s.editingMapping, toast := s.toast) == s
  {
    var t := StartLoading(s);
    var t := match deleted
      case Ok(_) =>
        var u := ShowToast(LoadMappings(t, reloaded), "Mapping deleted", Success);
        if s.editingMapping.Some? && s.editingMapping.value.key == mapping.key then u.(editingMapping := None) else u
      case Err(_) => ShowToast(t, "Failed to delete mapping", Error);
    StopLoading(t)
  }

  /** The header's tab switch (src/pages/DashboardLayout.jsx:338): selection survives it. */
  function ChangeTab(s: State, tab: Tab): (r: State)
    ensures r.activeTab == tab
    ensures r.(activeTab := s.activeTab) == s
  {
    s.(activeTab := tab)
  }

  /** `onEditRoute` (src/pages/DashboardLayout.jsx:269-272) followed by the
      effect on `editingRoute` (src/pages/DashboardLayout.jsx:256-261). Both
      `ensureChannels` calls of the effect read the same pre-effect cache,
      so a route whose two sides share a workspace fetches it twice and the
      destination's answer is the one kept when the responses arrive in
      request order. */
  function EditRoute(s: State, route: Option<Route>,
                     sourceFetched: ApiOutcome<Option<seq<Channel>>>,
                     destFetched: ApiOutcome<Option<seq<Channel>>>): (r: State)
    requires Inv(s)
    ensures Inv(r)
    ensures r.editingRoute == route && r.activeTab == RoutesTab
    ensures r.loadingCount == s.loadingCount
    ensures r.selectedWorkspace == s.selectedWorkspace && r.editingMapping == s.editingMapping
    ensures r.workspaces == s.workspaces && r.routes == s.routes && r.mappings == s.mappings
    ensures r.selectedChannelId == s.selectedChannelId
    // cached workspaces are never refetched or dropped
    ensures Keys(s.channelsByTeam) <= Keys(r.channelsByTeam)
    ensures forall k :: k in Keys(s.channelsByTeam) ==> Get(r.channelsByTeam, k) == Get(s.channelsByTeam, k)
    ensures route.None? ==> r.channelsByTeam == s.channelsByTeam
    ensures route.Some? && sourceFetched.Ok? && destFetched.Ok? ==>
      (Truthy(route.value.sourceTeamId) ==> route.value.sourceTeamId in Keys(r.channelsByTeam))
      && (Truthy(route.value.destTeamId) ==> route.value.destTeamId in Keys(r.channelsByTeam))
    // what each side's fetch stores; the destination's is written last
    ensures route.Some? && Uncached(s, route.value.destTeamId) && destFetched.Ok? ==>
      Get(r.channelsByTeam, route.value.destTeamId) == Some(TagChannels(OrEmpty(destFetched.data), route.value.destTeamId))
    ensures route.Some? && Uncached(s, route.value.sourceTeamId) && sourceFetched.Ok? ==>
      route.value.sourceTeamId != route.value.destTeamId ==>
      Get(r.channelsByTeam, route.value.sourceTeamId) == Some(TagChannels(OrEmpty(sourceFetched.data), route.value.sourceTeamId))
    // a failed fetch leaves its workspace uncached unless the other side's fetch of it succeeded
    ensures route.Some? && Uncached(s, route.value.sourceTeamId) && sourceFetched.Err? ==>
      route.value.sourceTeamId != route.value.destTeamId || destFetched.Err? ==>
      route.value.sourceTeamId !in Keys(r.channelsByTeam)
    ensures route.Some? && Uncached(s, route.value.destTeamId) && destFetched.Err? ==>
      route.value.sourceTeamId != route.value.destTeamId || sourceFetched.Err? ==>
      route.value.destTeamId !in Keys(r.channelsByTeam)
    // either failure shows the channel error toast, and it is the only toast the effect shows
    ensures route.Some? && Uncached(s, route.value.sourceTeamId) && sourceFetched.Err? ==>
      r.toast == Some(Toast("Failed to load channels", Error))
    ensures route.Some? && Uncached(s, route.value.destTeamId) && destFetched.Err? ==>
      r.toast == Some(Toast("Failed to load channels", Error))
    ensures r.toast == s.toast || r.toast == Some(Toast("Failed to load channels", Error))
  {
    var t := s.(editingRoute := route, activeTab := RoutesTab);
    if route.None? then t
    else EditRouteEffect(t, route.value, sourceFetched, destFetched)
  }

  /** The effect on `editingRoute` (src/pages/DashboardLayout.jsx:256-261):
      both `ensureChannels` calls run against the cache `t` had before the
      effect. */
  function EditRouteEffect(t: State, route: Route,
                           sourceFetched: ApiOutcome<Option<seq<Channel>>>,
                           destFetched: ApiOutcome<Option<seq<Channel>>>): (r: State)
    requires Inv(t)
    ensures Inv(r)
    ensures r.(channelsByTeam := t.channelsByTeam, toast := t.toast) == t
    ensures Keys(t.channelsByTeam) <= Keys(r.channelsByTeam)
    ensures forall k :: k in Keys(t.channelsByTeam) ==> Get(r.channelsByTeam, k) == Get(t.channelsByTeam, k)
    // what each side's fetch stores; the destination's is written last
    ensures Uncached(t, route.destTeamId) && destFetched.Ok? ==>
      Get(r.channelsByTeam, route.destTeamId) == Some(TagChannels(OrEmpty(destFetched.data), route.destTeamId))
    ensures Uncached(t, route.sourceTeamId) && sourceFetched.Ok? ==>
      route.sourceTeamId != route.destTeamId ==>
      Get(r.channelsByTeam, route.sourceTeamId) == Some(TagChannels(OrEmpty(sourceFetched.data), route.sourceTeamId))
    // a failed fetch leaves its workspace uncached unless the other side's fetch of it succeeded
    ensures Uncached(t, route.sourceTeamId) && sourceFetched.Err? ==>
      route.sourceTeamId != route.destTeamId || destFetched.Err? ==>
      route.sourceTeamId !in Keys(r.channelsByTeam)
    ensures Uncached(t, route.destTeamId) && destFetched.Err? ==>
      route.sourceTeamId != route.destTeamId || sourceFetched.Err? ==>
      route.destTeamId !in Keys(r.channelsByTeam)
    // either failure shows the channel error toast, and it is the only toast the effect shows
    ensures Uncached(t, route.sourceTeamId) && sourceFetched.Err? ==> r.toast == Some(Toast("Failed to load channels", Error))
    ensures Uncached(t, route.destTeamId) && destFetched.Err? ==> r.toast == Some(Toast("Failed to load channels", Error))
    ensures r.toast == t.toast || r.toast == Some(Toast("Failed to load channels", Error))
  {
    var seen := t.channelsByTeam;
    var u := EnsureChannelsFrom(seen, t, route.sourceTeamId, sourceFetched);
    EnsureChannelsFrom(seen, u, route.destTeamId, destFetched)
  }

  /** A route whose two sides share an uncached workspace: both calls of the
      effect fetch it, and the cache keeps the destination's answer when the
      responses arrive in request order. */
  lemma {:induction false} EditRouteSharedWorkspace(s: State, route: Route,
                                                    sourceData: Option<seq<Channel>>,
                                                    destData: Option<seq<Channel>>)
    requires Inv(s)
    requires route.sourceTeamId == route.destTeamId && Truthy(route.sourceTeamId)
    requires route.sourceTeamId !in Keys(s.channelsByTeam)
    ensures Get(EditRoute(s, Some(route), Ok(sourceData), Ok(destData)).channelsByTeam, route.sourceTeamId)
      == Some(TagChannels(OrEmpty(destData), route.sourceTeamId))
  {
    var t := s.(editingRoute := Some(route), activeTab := RoutesTab);
    var u := EnsureChannelsFrom(t.channelsByTeam, t, route.sourceTeamId, Ok(sourceData));
    assert Get(u.channelsByTeam, route.sourceTeamId) == Some(TagChannels(OrEmpty(sourceData), route.sourceTeamId));
  }

  /** `onAddMapping` (src/pages/DashboardLayout.jsx:283-286): `mapping || null`. */
  function AddMapping(s: State, mapping: Option<Mapping>): (r: State)
    ensures r.editingMapping == mapping && r.activeTab == MappingsTab
    ensures r.(editingMapping := s.editingMapping, activeTab := s.activeTab) == s
  {
    s.(editingMapping := mapping, activeTab := MappingsTab)
  }

  /** `onRefresh` (src/pages/DashboardLayout.jsx:347-350): two independent reloads. */
  function Refresh(s: State, ws: ApiOutcome<Option<seq<Workspace>>>, rts: ApiOutcome<Option<seq<Route>>>): (r: State)
    ensures r.loadingCount == s.loadingCount
    ensures ws.Ok? ==> r.workspaces == OrEmpty(ws.data)
    ensures ws.Err? ==> r.workspaces == s.workspaces
    ensures rts.Ok? ==> r.routes == OrEmpty(rts.data)
    ensures rts.Err? ==> r.routes == s.routes
    ensures r.(workspaces := s.workspaces, routes := s.routes, toast := s.toast) == s
    // the routes reload is taken to settle last, so its error toast is the one left showing
    ensures rts.Err? ==> r.toast == Some(Toast("Failed to load routes", Error))
    ensures rts.Ok? && ws.Err? ==> r.toast == Some(Toast("Failed to load workspaces", Error))
    ensures rts.Ok? && ws.Ok? ==> r.toast == s.toast
  {
    LoadRoutes(LoadWorkspaces(s, ws), rts)
  }

  /** The channels handed to the route form: `allChannels`. */
  function AllChannelsOf(s: State): (r: seq<Channel>)
    requires Inv(s)
    ensures forall ch :: ch in r ==> ch.teamId in Keys(s.channelsByTeam)
  {
    AllChannelsTagged(s.channelsByTeam);
    AllChannels(s.channelsByTeam)
  }
}

=== FILE: entities.dfy ===
/** The records the backend returns and the console displays. Field names
    follow the backend's JSON (`team_id` becomes `teamId`); string fields use
    the "" = missing convention of module Js. */
module Entities {
  import opened Js

  /** A connected Slack workspace; `teamId` is always present. */
  datatype Workspace = Workspace(
    teamId: string,
    teamName: string,
    isInternal: bool,
    connectedAt: string)

  /** A channel of one workspace. The participant count arrives under one of
      three field names, each possibly missing. `teamId` is absent in a
      backend response and set by the dashboard when it caches the list. */
  datatype Channel = Channel(
    id: string,
    name: string,
    isPrivate: bool,
    teamId: string,
    numMembers: Option<int>,
    memberCount: Option<int>,
    membersCount: Option<int>)

  /** A routing rule between two channels of two workspaces. The team names
      are optional denormalised copies; `enabled` may be missing. */
  datatype Route = Route(
    routeId: string,
    sourceTeamId: string,
    sourceTeamName: string,
    sourceChannelId: string,
    destTeamId: string,
    destTeamName: string,
    destChannelId: string,
    direction: string,
    name: string,
    enabled: Option<bool>)

  /** An identity mapping between an internal user and a client-workspace user. */
  datatype Mapping = Mapping(
    key: string,
    internalUserId: string,
    internalUsername: string,
    clientTeamId: string,
    clientUserId: string,
    clientUsername: string)

  /** How every list and selector labels a workspace: `team_name || team_id`. */
  function WorkspaceLabel(ws: Workspace): string {
    Or(ws.teamName, ws.teamId)
  }

  /** `workspaceNameById.get(id)` for the map built by
      `workspaces.forEach(ws => map.set(ws.team_id, label))`: the label of
      the LAST workspace carrying `id`, because a later `set` overwrites. */
  function NameById(workspaces: seq<Workspace>, id: string): (r: Option<string>)
    ensures r.None? <==> forall i :: 0 <= i < |workspaces| ==> workspaces[i].teamId != id
    ensures r.Some? ==>
      exists i :: 0 <= i < |workspaces| && workspaces[i].teamId == id
        && r.value == WorkspaceLabel(workspaces[i])
        && forall j :: i < j < |workspaces| ==> workspaces[j].teamId != id
    decreases |workspaces|
  {
    if |workspaces| == 0 then None
    else if workspaces[|workspaces| - 1].teamId == id then Some(WorkspaceLabel(workspaces[|workspaces| - 1]))
    else
      var init := workspaces[..|workspaces| - 1];
      var r := NameById(init, id);
      assert r.Some? ==> exists i :: LastWithId(workspaces, i, id) && r.value == WorkspaceLabel(workspaces[i]) by {
        if r.Some? {
          var i :| 0 <= i < |init| && init[i].teamId == id && r.value == WorkspaceLabel(init[i])
            && forall j :: i < j < |init| ==> init[j].teamId != id;
          assert init[i] == workspaces[i];
          assert forall j :: i < j < |init| ==> init[j] == workspaces[j];
          assert LastWithId(workspaces, i, id);
        }
      }
      r
  }

  /** Registering one more workspace: its label wins for its own id, and
      every other id resolves as before. */
  lemma {:induction false} NameByIdLaterWins(workspaces: seq<Workspace>, ws: Workspace, id: string)
    ensures NameById(workspaces + [ws], ws.teamId) == Some(WorkspaceLabel(ws))
    ensures id != ws.teamId ==> NameById(workspaces + [ws], id) == NameById(workspaces, id)
  {
    assert (workspaces + [ws])[..|workspaces|] == workspaces;
  }

  /** `i` is the last position of a workspace with id `id`. */
  predicate LastWithId(workspaces: seq<Workspace>, i: int, id: string) {
    0 <= i < |workspaces| && workspaces[i].teamId == id
    && forall j :: i < j < |workspaces| ==> workspaces[j].teamId != id
  }

  /** How the routes and mappings tables name a workspace they only know by
      id: `name || workspaceNameById.get(id) || id`, where `name` is a
      denormalised copy carried by the record ("" when it has none). */
  function TeamLabel(name: string, id: string, workspaces: seq<Workspace>): (r: string)
    ensures Truthy(name) ==> r == name
    ensures Truthy(id) ==> Truthy(r)
  {
    Or(name, OrOpt(NameById(workspaces, id), id))
  }

  /** The fallback chain stated against the workspace list rather than the
      lookup: the record's own name first, then the label of the last
      connected workspace with that id, then the bare id. */
  lemma {:induction false} TeamLabelFallback(name: string, id: string, workspaces: seq<Workspace>)
    ensures Truthy(name) ==> TeamLabel(name, id, workspaces) == name
    ensures !Truthy(name) && (forall i :: 0 <= i < |workspaces| ==> workspaces[i].teamId != id) ==>
      TeamLabel(name, id, workspaces) == id
    ensures !Truthy(name) ==>
      forall i :: LastWithId(workspaces, i, id) ==> TeamLabel(name, id, workspaces) == WorkspaceLabel(workspaces[i])
  {
    var n := NameById(workspaces, id);
    if n.Some? {
      var k :| 0 <= k < |workspaces| && workspaces[k].teamId == id
        && n.value == WorkspaceLabel(workspaces[k])
        && forall j :: k < j < |workspaces| ==> workspaces[j].teamId != id;
      forall i | LastWithId(workspaces, i, id)
        ensures OrOpt(n, id) == WorkspaceLabel(workspaces[i])
      {
        assert i == k;
      }
    }
  }
}

=== FILE: js.dfy ===
/** JavaScript value conventions shared by every component of the console.

    A string-valued property that may be missing (`undefined` or `null`) is
    represented by the empty string. Where the console tests such a property
    for truthiness or combines it with `||`, a missing property and `''`
    behave identically. Ids that are compared with `===` or used as keys are
    assumed present, as the backend's records carry them. Values whose
    absence is observable in a different way (`x !== false`, `x ?? y`, a
    nullable object) use `Option`.
 */
module Js {

  datatype Option<+T> = None | Some(value: T)

  /** Outcome of one awaited backend call: the resolved value, or the
      rejection's `message` ("" when the rejection carries none). */
  datatype ApiOutcome<+T> = Ok(data: T) | Err(message: string)

  /** JavaScript truthiness of a string. */
  predicate Truthy(s: string) {
    s != ""
  }

  /** `a || b` on strings. */
  function Or(a: string, b: string): string {
    if Truthy(a) then a else b
  }

  /** `a || b` where `a` may be `undefined` (a `Map.get` miss). */
  function OrOpt(a: Option<string>, b: string): string {
    if a.Some? && Truthy(a.value) then a.value else b
  }

  /** `a ?? b` on possibly-missing numbers. */
  function Coalesce(a: Option<int>, b: Option<int>): Option<int> {
    if a.Some? then a else b
  }

  /** `data || []` on a list response whose body may be null. */
  function OrEmpty<T>(data: Option<seq<T>>): seq<T> {
    if data.Some? then data.value else []
  }

  /** The error text a form shows for a rejection: `err?.message || fallback`. */
  function ErrorText(message: string, fallback: string): (r: string)
    ensures Truthy(fallback) ==> Truthy(r)
    ensures Truthy(message) ==> r == message
    ensures !Truthy(message) ==> r == fallback
  {
    Or(message, fallback)
  }

  /** The `handleDelete` guard both list components share: ask
      `window.confirm` only when a delete callback exists, and hand the item
      to it only on a confirmation. `confirmed` is the user's answer. */
  function ConfirmedDelete<T>(item: T, hasCallback: bool, confirmed: bool): (r: Option<T>)
    ensures r.Some? <==> hasCallback && confirmed
    ensures r.Some? ==> r.value == item
  {
    if !hasCallback then None
    else if confirmed then Some(item)
    else None
  }
}

=== FILE: loading.dfy ===
/** The dashboard's reference-counted loading flag
    (src/pages/DashboardLayout.jsx:75-86): `startLoading` adds one,
    `stopLoading` subtracts one but never goes below zero, and the blocking
    overlay is shown while the count is positive. */
module Loading {

  /** `setLoadingCount(c => c + 1)`. */
  function Start(c: nat): (r: nat)
    ensures r > 0
    ensures r - 1 == c
  {
    c + 1
  }

  /** `setLoadingCount(c => Math.max(0, c - 1))`. */
  function Stop(c: nat): (r: nat)
    ensures c == 0 ==> r == 0
    ensures c > 0 ==> r + 1 == c
  {
    if c == 0 then 0 else c - 1
  }

  /** The overlay of src/pages/DashboardLayout.jsx:360. */
  predicate OverlayShown(c: nat) {
    c > 0
  }

  /** One asynchronous operation beginning or reaching its `finally`. */
  datatype Event = Begin(op: nat) | End(op: nat)

  /** The counter after a trace of events, starting from zero. */
  function Counter(trace: seq<Event>): nat
    decreases |trace|
  {
    if |trace| == 0 then 0
    else
      var c := Counter(trace[..|trace| - 1]);
      match trace[|trace| - 1]
      case Begin(_) => Start(c)
      case End(_) => Stop(c)
  }

  /** The operations begun and not yet ended. */
  function InFlight(trace: seq<Event>): set<nat>
    decreases |trace|
  {
    if |trace| == 0 then {}
    else
      var s := InFlight(trace[..|trace| - 1]);
      match trace[|trace| - 1]
      case Begin(op) => s + {op}
      case End(op) => s - {op}
  }

  /** Every operation begins once before it ends, and ends at most once:
      the discipline `start ... finally stop` imposes on any interleaving. */
  predicate WellBracketed(trace: seq<Event>)
    decreases |trace|
  {
    |trace| == 0 ||
    (WellBracketed(trace[..|trace| - 1]) &&
     match trace[|trace| - 1]
     case Begin(op) => op !in InFlight(trace[..|trace| - 1])
     case End(op) => op in InFlight(trace[..|trace| - 1]))
  }

  /** For any interleaving of bracketed operations the counter equals the
      number of operations in flight, so `Math.max(0, ...)` never clamps. */
  lemma {:induction false} CounterIsInFlight(trace: seq<Event>)
    requires WellBracketed(trace)
    ensures Counter(trace) == |InFlight(trace)|
    decreases |trace|
  {
    if |trace| > 0 {
      var init := trace[..|trace| - 1];
      CounterIsInFlight(init);
      match trace[|trace| - 1]
      case Begin(op) =>
        assert InFlight(trace) == InFlight(init) + {op};
      case End(op) =>
        assert InFlight(trace) == InFlight(init) - {op};
        assert |InFlight(init)| > 0;
    }
  }

  /** The overlay is visible exactly while some operation has not reached
      its cleanup step; once all have, the counter is back at zero. */
  lemma OverlayIffPending(trace: seq<Event>)
    requires WellBracketed(trace)
    ensures OverlayShown(Counter(trace)) <==> InFlight(trace) != {}
    ensures InFlight(trace) == {} ==> Counter(trace) == 0
  {
    CounterIsInFlight(trace);
  }
}

=== FILE: mappings_list.dfy ===
/** The identity-mapping table, `IdentityMappingsList`
    (src/components/IdentityMappingsList.jsx). */
module MappingsList {
  import opened Js
  import opened Entities

  const NoDisplayName: string := "\U{2014}"

  /** The four text cells of a mapping's row. */
  datatype Row = Row(internalUser: string, clientWorkspace: string, clientUser: string, displayName: string)

  /** `workspaceNameById.get(client_team_id) || client_team_id`
      (src/components/IdentityMappingsList.jsx:32-36,68): a mapping carries
      no workspace name of its own. */
  function ClientName(m: Mapping, workspaces: seq<Workspace>): (r: string)
    ensures Truthy(m.clientTeamId) ==> Truthy(r)
  {
    TeamLabel("", m.clientTeamId, workspaces)
  }

  /** The client workspace is shown by the label of the last connected
      workspace with that id, and by the raw id when none is connected. */
  lemma {:induction false} ClientNameResolves(m: Mapping, workspaces: seq<Workspace>)
    ensures (forall i :: 0 <= i < |workspaces| ==> workspaces[i].teamId != m.clientTeamId) ==>
      ClientName(m, workspaces) == m.clientTeamId
    ensures forall i :: LastWithId(workspaces, i, m.clientTeamId) ==>
      ClientName(m, workspaces) == WorkspaceLabel(workspaces[i])
  {
    TeamLabelFallback("", m.clientTeamId, workspaces);
  }

  /** One mapping's row (src/components/IdentityMappingsList.jsx:67-79). */
  function RowFor(m: Mapping, workspaces: seq<Workspace>): (r: Row)
    ensures Truthy(m.internalUsername) ==> r.internalUser == m.internalUsername
    ensures !Truthy(m.internalUsername) ==> r.internalUser == m.internalUserId
    ensures Truthy(m.clientUsername) ==> r.clientUser == m.clientUsername && r.displayName == m.clientUsername
    ensures !Truthy(m.clientUsername) ==> r.clientUser == m.clientUserId && r.displayName == NoDisplayName
    ensures Truthy(r.displayName)
    ensures r.clientWorkspace == ClientName(m, workspaces)
  {
    Row(Or(m.internalUsername, m.internalUserId), ClientName(m, workspaces),
        Or(m.clientUsername, m.clientUserId), Or(m.clientUsername, NoDisplayName))
  }

  datatype Body = EmptyLine | Table(rows: seq<Row>)

  /** The empty-state line or the table, never both
      (src/components/IdentityMappingsList.jsx:53-101). */
  function BodyFor(mappings: seq<Mapping>, workspaces: seq<Workspace>): (b: Body)
    ensures b == EmptyLine <==> |mappings| == 0
    ensures b.Table? ==> |b.rows| == |mappings|
    ensures b.Table? ==> forall i :: 0 <= i < |mappings| ==> b.rows[i] == RowFor(mappings[i], workspaces)
  {
    if |mappings| == 0 then EmptyLine
    else Table(seq(|mappings|, i requires 0 <= i < |mappings| => RowFor(mappings[i], workspaces)))
  }

  /** A mapping the form saved has every field, so its row shows the names
      typed into the form and never falls back to ids. */
  lemma {:induction false} SavedMappingShowsNames(m: Mapping, workspaces: seq<Workspace>)
    requires Truthy(m.internalUsername) && Truthy(m.clientUsername)
    ensures RowFor(m, workspaces).internalUser == m.internalUsername
    ensures RowFor(m, workspaces).clientUser == m.clientUsername
    ensures RowFor(m, workspaces).displayName == m.clientUsername
  {
  }
}

=== FILE: oauth_callback.dfy ===
/** The page Slack's OAuth flow returns to, `OAuthCallback`
    (src/pages/OAuthCallback.jsx). It reads three query parameters and
    decides what to show and whether to send the user on to the dashboard.
    `params.get` yields `null` for a missing parameter; every test on
    `status` and `error` except `status === 'success'` is a truthiness
    test, so a missing parameter is "" here. */
module OAuthCallback {
  import opened Js

  const SuccessStatus: string := "success"
  const RedirectDelayMs: nat := 2000
  const DashboardPath: string := "/dashboard"
  const RetryPath: string := "/connect"

  datatype View =
    | Processing
    | ErrorView(message: string)
    | SuccessView(teamIdShown: Option<string>)
    | Blank

  /** The render's decision table (src/pages/OAuthCallback.jsx:49-86): the
      checks run in order, so an error beats a success status. */
  function ViewFor(status: string, error: string, teamId: string): (v: View)
    ensures v == Processing <==> !Truthy(status) && !Truthy(error)
    ensures v.ErrorView? <==> Truthy(error)
    ensures v.ErrorView? ==> v.message == error
    ensures v.SuccessView? <==> !Truthy(error) && status == SuccessStatus
    ensures v.SuccessView? ==> (v.teamIdShown.Some? <==> Truthy(teamId))
    ensures v.SuccessView? && v.teamIdShown.Some? ==> v.teamIdShown.value == teamId
    ensures v == Blank <==> Truthy(status) && status != SuccessStatus && !Truthy(error)
  {
    if !Truthy(status) && !Truthy(error) then Processing
    else if Truthy(error) then ErrorView(error)
    else if status == SuccessStatus then SuccessView(if Truthy(teamId) then Some(teamId) else None)
    else Blank
  }

  datatype Timer = Timer(delayMs: nat, target: string)

  /** The effect on `[status]` (src/pages/OAuthCallback.jsx:41-47): a
      success status arms one redirect to the dashboard, whatever is shown. */
  function TimerFor(status: string): (t: Option<Timer>)
    ensures t.Some? <==> status == SuccessStatus
    ensures t.Some? ==> t.value == Timer(RedirectDelayMs, DashboardPath)
  {
    if status == SuccessStatus then Some(Timer(RedirectDelayMs, DashboardPath)) else None
  }

  /** Whether the timed redirect happens: it is cleared on unmount, so it
      fires only if the page stays mounted for the whole delay. */
  predicate AutoRedirects(status: string, mountedMs: nat): (b: bool)
    ensures b <==> status == SuccessStatus && mountedMs >= RedirectDelayMs
  {
    TimerFor(status).Some? && mountedMs >= TimerFor(status).value.delayMs
  }

  /** Where the page's button leads (src/pages/OAuthCallback.jsx:66,80). */
  function ButtonTarget(v: View): (r: Option<string>)
    ensures r.Some? <==> v.ErrorView? || v.SuccessView?
    ensures v.ErrorView? ==> r == Some(RetryPath)
    ensures v.SuccessView? ==> r == Some(DashboardPath)
  {
    match v
    case ErrorView(_) => Some(RetryPath)
    case SuccessView(_) => Some(DashboardPath)
    case _ => None
  }

  /** Every success page leads to the dashboard twice over: its button and
      its timer. */
  lemma {:induction false} SuccessLeadsToDashboard(status: string, error: string, teamId: string)
    requires ViewFor(status, error, teamId).SuccessView?
    ensures ButtonTarget(ViewFor(status, error, teamId)) == Some(DashboardPath)
    ensures AutoRedirects(status, RedirectDelayMs)
  {
  }

  /** A callback carrying both `status=success` and an error shows the error
      and its retry button, yet the timer still takes the user to the
      dashboard after two seconds. */
  lemma {:induction false} ErrorWithSuccessStillRedirects(error: string, teamId: string)
    requires Truthy(error)
    ensures ViewFor(SuccessStatus, error, teamId) == ErrorView(error)
    ensures ButtonTarget(ViewFor(SuccessStatus, error, teamId)) == Some(RetryPath)
    ensures AutoRedirects(SuccessStatus, RedirectDelayMs)
  {
  }

  /** Only a page with no status and no error waits; no other view arms a
      timer unless the status is a success. */
  lemma {:induction false} NoTimerWithoutSuccess(status: string, error: string, teamId: string, mountedMs: nat)
    requires status != SuccessStatus
    ensures !AutoRedirects(status, mountedMs)
    ensures !ViewFor(status, error, teamId).SuccessView?
  {
  }
}

=== FILE: routes_list.dfy ===
/** The routes panel, `RoutesList` (src/components/RoutesList.jsx): routes
    grouped by source workspace, a direction arrow per route, a client-only
    enabled toggle, and a confirmed delete. */
module RoutesList {
  import opened Js
  import opened Entities
  import opened Seqs

  /** `iconForDirection` (src/components/RoutesList.jsx:21-25). */
  function IconForDirection(direction: string): (icon: string)
    ensures icon == "\U{2194}" <==> direction == "bidirectional"
    ensures icon == "\U{2190}" <==> direction == "outbound"
    ensures icon == "\U{2192}" <==> direction != "bidirectional" && direction != "outbound"
  {
    if direction == "bidirectional" then "\U{2194}"
    else if direction == "outbound" then "\U{2190}"
    else "\U{2192}"
  }

  /** The three directions the route form offers get three different arrows,
      and every other value is drawn as inbound. */
  lemma {:induction false} IconsDistinguishDirections(direction: string)
    ensures IconForDirection("inbound") != IconForDirection("outbound")
    ensures IconForDirection("inbound") != IconForDirection("bidirectional")
    ensures IconForDirection("outbound") != IconForDirection("bidirectional")
    ensures direction != "outbound" && direction != "bidirectional" ==>
      IconForDirection(direction) == IconForDirection("inbound")
  {
  }

  // ---------------------------------------------------------------------
  // Display names

  /** A group's heading, from its first route (src/components/RoutesList.jsx:48). */
  function SourceName(route: Route, workspaces: seq<Workspace>): (r: string)
    ensures Truthy(route.sourceTeamName) ==> r == route.sourceTeamName
    ensures Truthy(route.sourceTeamId) ==> Truthy(r)
  {
    TeamLabel(route.sourceTeamName, route.sourceTeamId, workspaces)
  }

  /** The destination label of one route card (src/components/RoutesList.jsx:89-90). */
  function DestName(route: Route, workspaces: seq<Workspace>): (r: string)
    ensures Truthy(route.destTeamName) ==> r == route.destTeamName
    ensures Truthy(route.destTeamId) ==> Truthy(r)
  {
    TeamLabel(route.destTeamName, route.destTeamId, workspaces)
  }

  /** Both labels of a route card follow the fallback chain of `TeamLabel`:
      the route's own copy of the name, else the last connected workspace
      with that id, else the id. */
  lemma {:induction false} RouteNamesFallback(route: Route, workspaces: seq<Workspace>)
    ensures Truthy(route.sourceTeamName) ==> SourceName(route, workspaces) == route.sourceTeamName
    ensures Truthy(route.destTeamName) ==> DestName(route, workspaces) == route.destTeamName
    ensures !Truthy(route.sourceTeamName) ==>
      forall i :: LastWithId(workspaces, i, route.sourceTeamId) ==>
        SourceName(route, workspaces) == WorkspaceLabel(workspaces[i])
    ensures !Truthy(route.destTeamName) ==>
      forall i :: LastWithId(workspaces, i, route.destTeamId) ==>
        DestName(route, workspaces) == WorkspaceLabel(workspaces[i])
    ensures !Truthy(route.sourceTeamName) && (forall i :: 0 <= i < |workspaces| ==> workspaces[i].teamId != route.sourceTeamId) ==>
      SourceName(route, workspaces) == route.sourceTeamId
    ensures !Truthy(route.destTeamName) && (forall i :: 0 <= i < |workspaces| ==> workspaces[i].teamId != route.destTeamId) ==>
      DestName(route, workspaces) == route.destTeamId
  {
    TeamLabelFallback(route.sourceTeamName, route.sourceTeamId, workspaces);
    TeamLabelFallback(route.destTeamName, route.destTeamId, workspaces);
  }

  // ---------------------------------------------------------------------
  // Grouping

  datatype Group = Group(sourceTeamId: string, sourceTeamName: string, items: seq<Route>)

  /** Routes whose source workspace is `k`. */
  function FromSource(k: string): Route -> bool {
    (r: Route) => r.sourceTeamId == k
  }

  /** Index of the first group keyed `k`, or `|groups|` (`groups.has(key)`). */
  function FindGroup(groups: seq<Group>, k: string): (i: nat)
    ensures i <= |groups|
    ensures i < |groups| ==> groups[i].sourceTeamId == k
    ensures i == |groups| ==> forall j :: 0 <= j < |groups| ==> groups[j].sourceTeamId != k
    decreases |groups|
  {
    if |groups| == 0 then 0
    else if groups[0].sourceTeamId == k then 0
    else 1 + FindGroup(groups[1..], k)
  }

  /** One iteration of the `forEach` in `groupedRoutes`
      (src/components/RoutesList.jsx:46-53). A `Map` keeps its keys in
      insertion order, so a new group goes last; its name is computed from
      the route that creates it. */
  function AddRoute(groups: seq<Group>, route: Route, workspaces: seq<Workspace>): seq<Group> {
    var i := FindGroup(groups, route.sourceTeamId);
    if i < |groups| then groups[i := groups[i].(items := groups[i].items + [route])]
    else groups + [Group(route.sourceTeamId, SourceName(route, workspaces), [route])]
  }

  /** `groupedRoutes` (src/components/RoutesList.jsx:44-55). */
  function GroupRoutes(routes: seq<Route>, workspaces: seq<Workspace>): (groups: seq<Group>)
    ensures |groups| <= |routes|
    ensures |groups| == 0 <==> |routes| == 0
    decreases |routes|
  {
    if |routes| == 0 then []
    else AddRoute(GroupRoutes(routes[..|routes| - 1], workspaces), routes[|routes| - 1], workspaces)
  }

  /** Position of the first route from workspace `k`, or `|routes|`. */
  function FirstIndex(routes: seq<Route>, k: string): (n: nat)
    ensures n <= |routes|
    ensures n < |routes| ==> routes[n].sourceTeamId == k
    ensures forall m :: 0 <= m < n && m < |routes| ==> routes[m].sourceTeamId != k
    decreases |routes|
  {
    if |routes| == 0 then 0
    else if routes[0].sourceTeamId == k then 0
    else 1 + FirstIndex(routes[1..], k)
  }

  function SourceTeams(routes: seq<Route>): set<string> {
    set r | r in routes :: r.sourceTeamId
  }

  function GroupKeys(groups: seq<Group>): set<string> {
    set i | 0 <= i < |groups| :: groups[i].sourceTeamId
  }

  /** All group items, group after group. */
  function Flatten(groups: seq<Group>): seq<Route>
    decreases |groups|
  {
    if |groups| == 0 then [] else groups[0].items + Flatten(groups[1..])
  }

  predicate DistinctKeys(groups: seq<Group>) {
    forall i, j :: 0 <= i < j < |groups| ==> groups[i].sourceTeamId != groups[j].sourceTeamId
  }

  predicate ItemsAreFilters(routes: seq<Route>, groups: seq<Group>) {
    forall i :: 0 <= i < |groups| ==> groups[i].items == Filter(routes, FromSource(groups[i].sourceTeamId))
  }

  predicate NamedAfterFirst(workspaces: seq<Workspace>, groups: seq<Group>) {
    forall i :: 0 <= i < |groups| ==>
      |groups[i].items| > 0 && groups[i].sourceTeamName == SourceName(groups[i].items[0], workspaces)
  }

  predicate FirstOccurrenceOrder(routes: seq<Route>, groups: seq<Group>) {
    forall i, j :: 0 <= i < j < |groups| ==>
      FirstIndex(routes, groups[i].sourceTeamId) < FirstIndex(routes, groups[j].sourceTeamId)
  }

  /** What `groupedRoutes` promises: a partition of the routes by source
      workspace, one group per distinct source, in order of first occurrence,
      each holding exactly that workspace's routes in input order, and named
      after its first route. */
  predicate IsGrouping(routes: seq<Route>, workspaces: seq<Workspace>, groups: seq<Group>) {
    && DistinctKeys(groups)
    && GroupKeys(groups) == SourceTeams(routes)
    && ItemsAreFilters(routes, groups)
    && NamedAfterFirst(workspaces, groups)
    && FirstOccurrenceOrder(routes, groups)
    && multiset(Flatten(groups)) == multiset(routes)
  }

  lemma {:induction false} FlattenSnoc(groups: seq<Group>, g: Group)
    ensures Flatten(groups + [g]) == Flatten(groups) + g.items
    decreases |groups|
  {
    if |groups| == 0 {
      assert groups + [g] == [g];
      assert Flatten([g]) == g.items + Flatten([g][1..]);
    } else {
      assert (groups + [g])[1..] == groups[1..] + [g];
      FlattenSnoc(groups[1..], g);
    }
  }

  lemma {:induction false} FlattenAppendItem(groups: seq<Group>, i: nat, r: Route)
    requires i < |groups|
    ensures multiset(Flatten(groups[i := groups[i].(items := groups[i].items + [r])]))
         == multiset(Flatten(groups)) + multiset{r}
    decreases |groups|
  {
    var u := groups[i := groups[i].(items := groups[i].items + [r])];
    if i > 0 {
      assert u[1..] == groups[1..][i - 1 := groups[1..][i - 1].(items := groups[1..][i - 1].items + [r])];
      FlattenAppendItem(groups[1..], i - 1, r);
    } else {
      assert u[1..] == groups[1..];
    }
  }

  /** `FirstIndex` after one more route. */
  lemma {:induction false} FirstIndexSnoc(routes: seq<Route>, r: Route, k: string)
    ensures FirstIndex(routes, k) < |routes| ==> FirstIndex(routes + [r], k) == FirstIndex(routes, k)
    ensures FirstIndex(routes, k) == |routes| && r.sourceTeamId == k ==> FirstIndex(routes + [r], k) == |routes|
    decreases |routes|
  {
    if |routes| > 0 {
      assert (routes + [r])[0] == routes[0];
      assert (routes + [r])[1..] == routes[1..] + [r];
      FirstIndexSnoc(routes[1..], r, k);
    }
  }

  lemma {:induction false} SourceTeamsSnoc(routes: seq<Route>, r: Route)
    ensures SourceTeams(routes + [r]) == SourceTeams(routes) + {r.sourceTeamId}
  {
    var rs := routes + [r];
    forall x | x in SourceTeams(rs) ensures x in SourceTeams(routes) + {r.sourceTeamId} {
      var y :| y in rs && y.sourceTeamId == x;
      if y != r { assert y in routes; }
    }
    forall x | x in SourceTeams(routes) ensures x in SourceTeams(rs) {
      var y :| y in routes && y.sourceTeamId == x;
      assert y in rs;
    }
  }

  /** Every existing group's source already occurs among the routes. */
  lemma {:induction false} KeysOccur(routes: seq<Route>, groups: seq<Group>, j: nat)
    requires GroupKeys(groups) == SourceTeams(routes)
    requires j < |groups|
    ensures FirstIndex(routes, groups[j].sourceTeamId) < |routes|
  {
    assert groups[j].sourceTeamId in GroupKeys(groups);
    var y :| y in routes && y.sourceTeamId == groups[j].sourceTeamId;
    var n :| 0 <= n < |routes| && routes[n] == y;
  }

  /** Appending `r` to group `i` of `groups`. */
  function Extend(groups: seq<Group>, i: nat, r: Route): seq<Group>
    requires i < |groups|
  {
    groups[i := groups[i].(items := groups[i].items + [r])]
  }

  lemma {:induction false} ExtendKeys(groups: seq<Group>, i: nat, r: Route)
    requires i < |groups|
    ensures DistinctKeys(groups) ==> DistinctKeys(Extend(groups, i, r))
    ensures GroupKeys(Extend(groups, i, r)) == GroupKeys(groups)
    ensures forall j :: 0 <= j < |groups| ==> Extend(groups, i, r)[j].sourceTeamId == groups[j].sourceTeamId
  {
    var g := Extend(groups, i, r);
    forall x | x in GroupKeys(groups) ensures x in GroupKeys(g) {
      var j :| 0 <= j < |groups| && groups[j].sourceTeamId == x;
      assert g[j].sourceTeamId == x;
    }
  }

  lemma {:induction false} ExtendItems(routes: seq<Route>, r: Route, groups: seq<Group>, i: nat)
    requires i < |groups| && groups[i].sourceTeamId == r.sourceTeamId
    requires DistinctKeys(groups) && ItemsAreFilters(routes, groups)
    ensures ItemsAreFilters(routes + [r], Extend(groups, i, r))
  {
    var g := Extend(groups, i, r);
    forall j | 0 <= j < |g| ensures g[j].items == Filter(routes + [r], FromSource(g[j].sourceTeamId)) {
      FilterSnoc(routes, r, FromSource(groups[j].sourceTeamId));
    }
  }

  lemma {:induction false} ExtendNames(workspaces: seq<Workspace>, groups: seq<Group>, i: nat, r: Route)
    requires i < |groups| && NamedAfterFirst(workspaces, groups)
    ensures NamedAfterFirst(workspaces, Extend(groups, i, r))
  {
    var g := Extend(groups, i, r);
    forall j | 0 <= j < |g|
      ensures |g[j].items| > 0 && g[j].sourceTeamName == SourceName(g[j].items[0], workspaces)
    {
      if j == i {
        assert g[j].items[0] == groups[j].items[0];
      }
    }
  }

  lemma {:induction false} ExtendOrder(routes: seq<Route>, r: Route, groups: seq<Group>, i: nat)
    requires i < |groups|
    requires GroupKeys(groups) == SourceTeams(routes) && FirstOccurrenceOrder(routes, groups)
    ensures FirstOccurrenceOrder(routes + [r], Extend(groups, i, r))
  {
    var g := Extend(groups, i, r);
    ExtendKeys(groups, i, r);
    forall j | 0 <= j < |g| ensures FirstIndex(routes + [r], g[j].sourceTeamId) == FirstIndex(routes, groups[j].sourceTeamId) {
      KeysOccur(routes, groups, j);
      FirstIndexSnoc(routes, r, groups[j].sourceTeamId);
    }
  }

  /** Set bookkeeping for a route joining a group: the keys stay the
      source teams, since the new route's team is already among them. */
  lemma {:induction false} KeysStep(after: set<string>, before: set<string>, teamsAfter: set<string>, teams: set<string>, k: string)
    requires after == before && before == teams && teamsAfter == teams + {k} && k in before
    ensures after == teamsAfter
  {
  }

  /** A route from a workspace that already has a group joins that group. */
  lemma {:induction false} AddToExistingGroup(routes: seq<Route>, r: Route, workspaces: seq<Workspace>, groups: seq<Group>)
    requires IsGrouping(routes, workspaces, groups)
    requires FindGroup(groups, r.sourceTeamId) < |groups|
    ensures DistinctKeys(AddRoute(groups, r, workspaces))
    ensures GroupKeys(AddRoute(groups, r, workspaces)) == SourceTeams(routes + [r])
    ensures ItemsAreFilters(routes + [r], AddRoute(groups, r, workspaces))
    ensures NamedAfterFirst(workspaces, AddRoute(groups, r, workspaces))
    ensures FirstOccurrenceOrder(routes + [r], AddRoute(groups, r, workspaces))
    ensures multiset(Flatten(AddRoute(groups, r, workspaces))) == multiset(routes + [r])
  {
    var i := FindGroup(groups, r.sourceTeamId);
    assert AddRoute(groups, r, workspaces) == Extend(groups, i, r);
    ExtendKeys(groups, i, r);
    ExtendItems(routes, r, groups, i);
    ExtendNames(workspaces, groups, i, r);
    ExtendOrder(routes, r, groups, i);
    SourceTeamsSnoc(routes, r);
    KeysStep(GroupKeys(Extend(groups, i, r)), GroupKeys(groups), SourceTeams(routes + [r]), SourceTeams(routes), r.sourceTeamId);
    FlattenAppendItem(groups, i, r);
  }

  lemma {:induction false} NewGroupItems(routes: seq<Route>, r: Route, groups: seq<Group>, ng: Group)
    requires ng.sourceTeamId == r.sourceTeamId && ng.items == [r]
    requires r.sourceTeamId !in SourceTeams(routes)
    requires DistinctKeys(groups) && ItemsAreFilters(routes, groups)
    requires forall j :: 0 <= j < |groups| ==> groups[j].sourceTeamId != r.sourceTeamId
    ensures ItemsAreFilters(routes + [r], groups + [ng])
  {
    var k := r.sourceTeamId;
    var g := groups + [ng];
    forall n | 0 <= n < |routes| ensures !FromSource(k)(routes[n]) {
      assert routes[n].sourceTeamId in SourceTeams(routes);
    }
    FilterNone(routes, FromSource(k));
    FilterSnoc(routes, r, FromSource(k));
    forall j | 0 <= j < |g| ensures g[j].items == Filter(routes + [r], FromSource(g[j].sourceTeamId)) {
      if j < |groups| {
        FilterSnoc(routes, r, FromSource(groups[j].sourceTeamId));
      }
    }
  }

  lemma {:induction false} NewGroupOrder(routes: seq<Route>, r: Route, groups: seq<Group>, ng: Group)
    requires ng.sourceTeamId == r.sourceTeamId
    requires r.sourceTeamId !in SourceTeams(routes)
    requires GroupKeys(groups) == SourceTeams(routes) && FirstOccurrenceOrder(routes, groups)
    ensures FirstOccurrenceOrder(routes + [r], groups + [ng])
  {
    var k := r.sourceTeamId;
    var g := groups + [ng];
    assert FirstIndex(routes, k) == |routes|;
    FirstIndexSnoc(routes, r, k);
    forall j | 0 <= j < |groups|
      ensures FirstIndex(routes + [r], g[j].sourceTeamId) == FirstIndex(routes, groups[j].sourceTeamId) < |routes|
    {
      KeysOccur(routes, groups, j);
      FirstIndexSnoc(routes, r, groups[j].sourceTeamId);
    }
  }

  lemma {:induction false} NewGroupKeys(groups: seq<Group>, ng: Group)
    ensures GroupKeys(groups + [ng]) == GroupKeys(groups) + {ng.sourceTeamId}
  {
    var g := groups + [ng];
    assert g[|groups|].sourceTeamId == ng.sourceTeamId;
    forall x | x in GroupKeys(groups) ensures x in GroupKeys(g) {
      var j :| 0 <= j < |groups| && groups[j].sourceTeamId == x;
      assert g[j].sourceTeamId == x;
    }
  }

  lemma {:induction false} AbsentKey(groups: seq<Group>, k: string)
    requires forall j :: 0 <= j < |groups| ==> groups[j].sourceTeamId != k
    ensures k !in GroupKeys(groups)
  {
  }

  /** Set bookkeeping for a new group: adding its key on both sides keeps
      the keys equal to the source teams. */
  lemma {:induction false} KeysStepNew(after: set<string>, before: set<string>, teamsAfter: set<string>, teams: set<string>, k: string)
    requires after == before + {k} && before == teams && teamsAfter == teams + {k}
    ensures after == teamsAfter
  {
  }

  /** A new group named after its only route keeps every group named after its first route. */
  lemma {:induction false} NewGroupNames(workspaces: seq<Workspace>, groups: seq<Group>, ng: Group)
    requires NamedAfterFirst(workspaces, groups)
    requires |ng.items| > 0 && ng.sourceTeamName == SourceName(ng.items[0], workspaces)
    ensures NamedAfterFirst(workspaces, groups + [ng])
  {
  }

  lemma {:induction false} NewGroupDistinct(groups: seq<Group>, ng: Group)
    requires DistinctKeys(groups)
    requires forall j :: 0 <= j < |groups| ==> groups[j].sourceTeamId != ng.sourceTeamId
    ensures DistinctKeys(groups + [ng])
  {
  }

  /** A route from a new workspace opens a new, last group. */
  lemma {:induction false} AddNewGroup(routes: seq<Route>, r: Route, workspaces: seq<Workspace>, groups: seq<Group>, ng: Group)
    requires IsGrouping(routes, workspaces, groups)
    requires forall j :: 0 <= j < |groups| ==> groups[j].sourceTeamId != r.sourceTeamId
    requires ng == Group(r.sourceTeamId, SourceName(r, workspaces), [r])
    ensures IsGrouping(routes + [r], workspaces, groups + [ng])
  {
    var k := r.sourceTeamId;
    AbsentKey(groups, k);
    NewGroupDistinct(groups, ng);
    NewGroupItems(routes, r, groups, ng);
    NewGroupNames(workspaces, groups, ng);
    NewGroupOrder(routes, r, groups, ng);
    NewGroupKeys(groups, ng);
    SourceTeamsSnoc(routes, r);
    KeysStepNew(GroupKeys(groups + [ng]), GroupKeys(groups), SourceTeams(routes + [r]), SourceTeams(routes), k);
    FlattenSnoc(groups, ng);
  }

  /** One step of the grouping loop keeps the grouping property. */
  lemma {:induction false} AddRouteStep(routes: seq<Route>, r: Route, workspaces: seq<Workspace>, groups: seq<Group>)
    requires IsGrouping(routes, workspaces, groups)
    ensures IsGrouping(routes + [r], workspaces, AddRoute(groups, r, workspaces))
  {
    if FindGroup(groups, r.sourceTeamId) < |groups| {
      AddToExistingGroup(routes, r, workspaces, groups);
    } else {
      var ng := Group(r.sourceTeamId, SourceName(r, workspaces), [r]);
      assert AddRoute(groups, r, workspaces) == groups + [ng];
      AddNewGroup(routes, r, workspaces, groups, ng);
    }
  }

  /** Grouping is a partition of the routes by source workspace: keys are
      distinct and are exactly the source workspaces, groups come in order of
      first occurrence, each group holds that workspace's routes in input
      order (see `FilterKeepsOrder`), every route lands in exactly one group,
      and a group is named after its first route. */
  lemma {:induction false} GroupRoutesIsGrouping(routes: seq<Route>, workspaces: seq<Workspace>)
    ensures IsGrouping(routes, workspaces, GroupRoutes(routes, workspaces))
    decreases |routes|
  {
    if |routes| == 0 {
      assert SourceTeams(routes) == {};
    } else {
      var init := routes[..|routes| - 1];
      var last := routes[|routes| - 1];
      assert init + [last] == routes;
      GroupRoutesIsGrouping(init, workspaces);
      AddRouteStep(init, last, workspaces, GroupRoutes(init, workspaces));
      assert GroupRoutes(routes, workspaces) == AddRoute(GroupRoutes(init, workspaces), last, workspaces);
    }
  }

  /** The example of three routes from workspaces A, B, A: two groups,
      A holding routes 1 and 3, then B holding route 2. */
  lemma {:induction false} GroupingExample(a1: Route, b2: Route, a3: Route)
    requires a1.sourceTeamId == "A" && a3.sourceTeamId == "A" && b2.sourceTeamId == "B"
    ensures var g := GroupRoutes([a1, b2, a3], []);
      |g| == 2 && g[0].sourceTeamId == "A" && g[0].items == [a1, a3]
      && g[1].sourceTeamId == "B" && g[1].items == [b2]
  {
    assert [a1, b2, a3][..2] == [a1, b2];
    assert [a1, b2][..1] == [a1];
    assert [a1][..0] == [];
    var g0 := GroupRoutes([], []);
    assert g0 == [];
    assert FindGroup(g0, "A") == 0;
    var g1 := GroupRoutes([a1], []);
    assert g1 == AddRoute(g0, a1, []);
    assert g1 == [] + [Group("A", SourceName(a1, []), [a1])];
    assert FindGroup(g1, "B") == 1 by {
      assert g1[1..] == [];
    }
    var g2 := GroupRoutes([a1, b2], []);
    assert g2 == g1 + [Group("B", SourceName(b2, []), [b2])];
    assert FindGroup(g2, "A") == 0;
  }

  // ---------------------------------------------------------------------
  // Enabled toggle (client-side only)

  /** The effect that seeds `enabledState` (src/components/RoutesList.jsx:30-36):
      `initial[r.route_id] = r.enabled !== false`; a later route with the same
      id overwrites an earlier one. */
  function InitialEnabled(routes: seq<Route>): (m: map<string, bool>)
    ensures forall i :: 0 <= i < |routes| ==> routes[i].routeId in m
    ensures forall id :: id in m ==> exists i :: 0 <= i < |routes| && routes[i].routeId == id
    decreases |routes|
  {
    if |routes| == 0 then map[]
    else
      var last := routes[|routes| - 1];
      var m := InitialEnabled(routes[..|routes| - 1]);
      m[last.routeId := last.enabled != Some(false)]
  }

  /** Whether the switch shows "Enabled": `enabledState[id] !== false`
      (src/components/RoutesList.jsx:92); a missing entry reads as enabled. */
  predicate ShownEnabled(state: map<string, bool>, routeId: string) {
    !(routeId in state && !state[routeId])
  }

  /** `handleToggle` (src/components/RoutesList.jsx:65-70):
      `[id]: !prev[id]`, where `!undefined` is `true`. */
  function Toggle(state: map<string, bool>, routeId: string): (r: map<string, bool>)
    ensures r.Keys == state.Keys + {routeId}
    ensures forall id :: id in state && id != routeId ==> r[id] == state[id]
    ensures routeId in state ==> ShownEnabled(r, routeId) == !ShownEnabled(state, routeId)
    ensures routeId !in state ==> r[routeId]
  {
    state[routeId := if routeId in state then !state[routeId] else true]
  }

  /** Toggling an entry that exists twice restores the state. */
  lemma {:induction false} ToggleTwice(state: map<string, bool>, routeId: string)
    requires routeId in state
    ensures Toggle(Toggle(state, routeId), routeId) == state
  {
  }

  /** A route with no entry yet (before the seeding effect has run) reads
      as enabled, and its first toggle stores `true`: the click has no
      visible effect. */
  lemma {:induction false} UnseededToggleInvisible(state: map<string, bool>, routeId: string)
    requires routeId !in state
    ensures ShownEnabled(state, routeId)
    ensures ShownEnabled(Toggle(state, routeId), routeId)
  {
  }

  /** A freshly seeded switch shows enabled unless the route says exactly
      `enabled: false`; when two routes share an id, the later one decides. */
  lemma {:induction false} InitialShownEnabled(routes: seq<Route>, i: nat)
    requires i < |routes|
    requires forall j :: i < j < |routes| ==> routes[j].routeId != routes[i].routeId
    ensures InitialEnabled(routes)[routes[i].routeId] == (routes[i].enabled != Some(false))
    ensures ShownEnabled(InitialEnabled(routes), routes[i].routeId) <==> routes[i].enabled != Some(false)
    decreases |routes|
  {
    if i < |routes| - 1 {
      InitialShownEnabled(routes[..|routes| - 1], i);
    }
  }

  /** The empty-state line appears iff there are no routes
      (src/components/RoutesList.jsx:81-83), and then there are no groups. */
  lemma {:induction false} EmptyStateIffNoGroups(routes: seq<Route>, workspaces: seq<Workspace>)
    ensures |routes| == 0 <==> |GroupRoutes(routes, workspaces)| == 0
  {
    GroupRoutesIsGrouping(routes, workspaces);
    if |routes| > 0 {
      assert routes[0].sourceTeamId in SourceTeams(routes);
    }
  }
}

=== FILE: seqs.dfy ===
/** Order-preserving filtering, the shape of `Array.prototype.filter`. */
module Seqs {

  /** The elements of `xs` satisfying `p`, in their original order. */
  function Filter<T>(xs: seq<T>, p: T -> bool): (r: seq<T>)
    ensures |r| <= |xs|
    ensures forall i :: 0 <= i < |r| ==> r[i] in xs && p(r[i])
    ensures forall n :: 0 <= n < |xs| && p(xs[n]) ==> xs[n] in r
    decreases |xs|
  {
    if |xs| == 0 then []
    else (if p(xs[0]) then [xs[0]] else []) + Filter(xs[1..], p)
  }

  /** The positions of `xs` whose element satisfies `p`, ascending: an
      independent description of which elements `Filter` keeps. */
  function MatchIndices<T>(xs: seq<T>, p: T -> bool): (idx: seq<nat>)
    ensures forall i :: 0 <= i < |idx| ==> idx[i] < |xs| && p(xs[idx[i]])
    ensures forall i, j :: 0 <= i < j < |idx| ==> idx[i] < idx[j]
    ensures forall n :: 0 <= n < |xs| && p(xs[n]) ==> n in idx
    decreases |xs|
  {
    if |xs| == 0 then []
    else
      var rest := MatchIndices(xs[..|xs| - 1], p);
      if p(xs[|xs| - 1]) then rest + [|xs| - 1] else rest
  }

  /** Filtering a sequence with one more element at the end. */
  lemma {:induction false} FilterSnoc<T>(xs: seq<T>, x: T, p: T -> bool)
    ensures Filter(xs + [x], p) == Filter(xs, p) + (if p(x) then [x] else [])
    decreases |xs|
  {
    if |xs| == 0 {
      assert xs + [x] == [x];
      assert Filter([x], p) == (if p(x) then [x] else []) + Filter([x][1..], p);
    } else {
      assert (xs + [x])[0] == xs[0];
      assert (xs + [x])[1..] == xs[1..] + [x];
      FilterSnoc(xs[1..], x, p);
    }
  }

  /** `Filter` keeps exactly the elements at `MatchIndices`, in that order:
      the filtered sequence preserves the relative input order. */
  lemma {:induction false} FilterKeepsOrder<T>(xs: seq<T>, p: T -> bool)
    ensures |Filter(xs, p)| == |MatchIndices(xs, p)|
    ensures forall i :: 0 <= i < |Filter(xs, p)| ==> Filter(xs, p)[i] == xs[MatchIndices(xs, p)[i]]
    decreases |xs|
  {
    if |xs| > 0 {
      var init := xs[..|xs| - 1];
      var last := xs[|xs| - 1];
      assert xs == init + [last];
      FilterKeepsOrder(init, p);
      FilterSnoc(init, last, p);
      MatchIndicesSnoc(init, last, p);
      AppendKeepsOrder(init, last, Filter(init, p), MatchIndices(init, p), p(last));
    }
  }

  /** `MatchIndices` on a sequence with one more element at the end. */
  lemma {:induction false} MatchIndicesSnoc<T>(xs: seq<T>, x: T, p: T -> bool)
    ensures MatchIndices(xs + [x], p) == MatchIndices(xs, p) + (if p(x) then [|xs|] else [])
  {
    assert (xs + [x])[..|xs|] == xs;
  }

  /** The index bookkeeping of one `FilterKeepsOrder` step, free of `Filter`:
      appending `x` to the input and, when kept, to the output and its index
      list, keeps every output element at its recorded index. */
  lemma {:induction false} AppendKeepsOrder<T>(xs: seq<T>, x: T, f: seq<T>, m: seq<nat>, keep: bool)
    requires |f| == |m|
    requires forall i :: 0 <= i < |m| ==> m[i] < |xs| && f[i] == xs[m[i]]
    ensures var f', m' := f + (if keep then [x] else []), m + (if keep then [|xs|] else []);
      |f'| == |m'| && forall i :: 0 <= i < |m'| ==> m'[i] < |xs + [x]| && f'[i] == (xs + [x])[m'[i]]
  {
  }

  /** A filter that rejects every element is empty. */
  lemma FilterNone<T>(xs: seq<T>, p: T -> bool)
    requires forall n :: 0 <= n < |xs| ==> !p(xs[n])
    ensures Filter(xs, p) == []
  {
  }
}

=== FILE: workspaces_list.dfy ===
/** The workspace sidebar, `WorkspacesList` (src/components/WorkspacesList.jsx).
    Its one piece of logic is the "Mark Internal" gate: once any workspace
    is internal, no other can be marked. */
module WorkspacesList {
  import opened Js
  import opened Entities

  const InternalIcon: string := "\U{1F7E2}"
  const ClientIcon: string := "\U{1F7E1}"

  /** `workspaces.some(ws => ws.is_internal)` (src/components/WorkspacesList.jsx:5). */
  function HasInternal(workspaces: seq<Workspace>): (r: bool)
    ensures r <==> exists i :: 0 <= i < |workspaces| && workspaces[i].isInternal
    decreases |workspaces|
  {
    if |workspaces| == 0 then false
    else if workspaces[0].isInternal then true
    else
      var rest := HasInternal(workspaces[1..]);
      assert forall i :: 1 <= i < |workspaces| ==> workspaces[i] == workspaces[1..][i - 1];
      rest
  }

  /** What a row shows where the "Mark Internal" button would go. */
  datatype MarkControl = NoButton | Enabled | Disabled

  /** (src/components/WorkspacesList.jsx:41-63): no button on an internal
      workspace; otherwise a button, disabled once some workspace is internal. */
  function MarkControlFor(workspaces: seq<Workspace>, ws: Workspace): (c: MarkControl)
    ensures c == NoButton <==> ws.isInternal
    ensures c == Enabled <==> !ws.isInternal && forall i :: 0 <= i < |workspaces| ==> !workspaces[i].isInternal
  {
    if ws.isInternal then NoButton
    else if HasInternal(workspaces) then Disabled
    else Enabled
  }

  /** A click on a row's "Mark Internal" button (src/components/WorkspacesList.jsx:44-49):
      the workspace handed to `onMarkInternal`, if any. */
  function MarkInternalClick(workspaces: seq<Workspace>, ws: Workspace, hasCallback: bool): (r: Option<Workspace>)
    ensures r.Some? ==> r.value == ws
    ensures r.Some? <==> hasCallback && MarkControlFor(workspaces, ws) == Enabled
  {
    if !ws.isInternal && !HasInternal(workspaces) && hasCallback then Some(ws) else None
  }

  /** Once a click has gone through and the backend has marked that row,
      every further click on any row of the reloaded list is refused. */
  lemma {:induction false} MarkOnlyOnce(workspaces: seq<Workspace>, i: nat, other: Workspace, hasCallback: bool)
    requires i < |workspaces|
    requires MarkInternalClick(workspaces, workspaces[i], hasCallback).Some?
    ensures MarkInternalClick(workspaces[i := workspaces[i].(isInternal := true)], other, hasCallback).None?
  {
    var marked := workspaces[i := workspaces[i].(isInternal := true)];
    assert marked[i].isInternal;
  }

  /** In a list where some row is internal, no row offers an enabled button. */
  lemma {:induction false} InternalClosesGate(workspaces: seq<Workspace>, i: nat)
    requires i < |workspaces| && workspaces[i].isInternal
    ensures forall j :: 0 <= j < |workspaces| ==> MarkControlFor(workspaces, workspaces[j]) != Enabled
  {
    assert HasInternal(workspaces);
  }

  /** `ws.team_id === selectedWorkspace?.team_id` (src/components/WorkspacesList.jsx:21):
      false when nothing is selected, since every workspace has an id. */
  predicate IsSelected(ws: Workspace, selected: Option<Workspace>) {
    selected.Some? && ws.teamId == selected.value.teamId
  }

  /** The selected workspace's own row is highlighted, and when team ids are
      distinct no other row is: selection is by id, not by object identity. */
  lemma {:induction false} SelectionById(workspaces: seq<Workspace>, k: nat, selected: Workspace)
    requires k < |workspaces| && workspaces[k].teamId == selected.teamId
    requires forall i, j :: 0 <= i < j < |workspaces| ==> workspaces[i].teamId != workspaces[j].teamId
    ensures IsSelected(workspaces[k], Some(selected))
    ensures forall j :: 0 <= j < |workspaces| && j != k ==> !IsSelected(workspaces[j], Some(selected))
    ensures forall j :: 0 <= j < |workspaces| ==> !IsSelected(workspaces[j], None)
  {
    forall j | 0 <= j < |workspaces| && j != k
      ensures !IsSelected(workspaces[j], Some(selected))
    {
      if j < k { assert workspaces[j].teamId != workspaces[k].teamId; }
      else { assert workspaces[k].teamId != workspaces[j].teamId; }
    }
  }

  /** A row's status icon and label (src/components/WorkspacesList.jsx:36). */
  function RowTitle(ws: Workspace): (t: (string, string))
    ensures t.0 == InternalIcon <==> ws.isInternal
    ensures Truthy(ws.teamId) ==> Truthy(t.1)
  {
    (if ws.isInternal then InternalIcon else ClientIcon, WorkspaceLabel(ws))
  }

  /** The "No workspaces connected." line (src/components/WorkspacesList.jsx:67). */
  predicate ShowsEmptyMessage(workspaces: seq<Workspace>) {
    |workspaces| == 0
  }

  /** With no workspaces there is nothing to mark; with only client
      workspaces every row's button is enabled. */
  lemma {:induction false} NoInternalOpensGate(workspaces: seq<Workspace>)
    requires forall i :: 0 <= i < |workspaces| ==> !workspaces[i].isInternal
    ensures forall j :: 0 <= j < |workspaces| ==> MarkControlFor(workspaces, workspaces[j]) == Enabled
  {
  }
}
